=== FILE: README.md ===
# SuperAgent core, modelled in Dafny

SuperAgent is a multi-agent assistant. A router agent classifies each
request as text, image, file or link. It hands the request to the expert
agent for that category and wraps the agent's answer in a response
envelope. Around it sit a bounded short-term conversation memory, an
append-only long-term memory, a small vector store, the file and link
agents, a PDF text extractor, the HTTP routes and the model
registry/loader.

This project models those pieces as pure functions over immutable
datatypes:

- Every foreign call is a function parameter that may fail with an
  exception value. This covers the zero-shot classifier, the summariser,
  the PDF, CSV and HTML readers, reading and appending to the long-term
  storage file, the Azure services, and transformers' `pipeline`
  constructor (absent when transformers cannot be imported).
- Python exceptions are `Failure` values carrying `PyValues.Exception`.
- Each module follows one source file:

| module | file |
|---|---|
| `Router` | `src/agents/router_agent.py`, graph semantics as in `tests/test_router_agent.py` |
| `ShortTerm` | `src/core/memory/short_term.py` |
| `LongTerm` | `src/core/memory/long_term.py` |
| `JsonString` | the `json.dumps`/`json.loads` string literal that `long_term.py` relies on (section 7 of RFC 8259, `ensure_ascii`) |
| `VectorDb` | `src/core/knowledge_base/vector_db.py` |
| `FileAgent` | `src/agents/expert_agents/file_agent.py` |
| `PdfProcessor` | `src/services/file_processing/pdf_processor.py` |
| `LinkAgent` | `src/agents/expert_agents/link_agent.py` |
| `Routes` | `src/services/api/fastapi_app/routes.py` |
| `Models` | `src/models/model_registry.py` and `src/models/model_loader.py` |
| `Wiring` | the file node of the router's graph (see Findings) |
| `Wrappers`, `PyValues`, `Strings` | shared result types, Python values, string concatenation facts |

The workflow graph runs the way the test suite's graph does. The entry
node "router" returns a label. The node registered under that label runs
on the same state. Its result is the one streamed item.

## Model

| member | source | states |
|---|---|---|
| Router.BuildState | src/agents/router_agent.py:67-73 | The state is `{"input": content}` with the metadata entries merged over it. Every metadata key is present with the metadata's value. A missing "content" raises `KeyError('content')`. It succeeds whenever content is present and the metadata, if any, is a mapping. |
| Router.MetadataOverridesContent | src/agents/router_agent.py:69-73 | A metadata entry named "input" replaces the content in the state. |
| Router.Classify | src/agents/router_agent.py:31-43 | The classifier is asked about `state["input"]` with the fixed candidates text/image/file/link. The routed label is the first ranked label. A classifier exception propagates, and an empty ranking is an error. |
| Router.RunNode | src/agents/router_agent.py:45-54 | The node table holds "router" (yields the classified label) and one node per label that runs that label's agent on the whole state. Any other name is a `KeyError`. |
| Router.Stream | tests/test_router_agent.py:21-27 | The one streamed item: a classifier exception or an empty ranking is raised as it is, and otherwise the node named by the top label runs on the same state. |
| Router.ProcessInput | src/agents/router_agent.py:65-96 | It never raises. A request without content yields `{status: error, message: "'content'"}`, and any other state-building error its `str(e)`. A classifier exception `e` yields `{status: error, message: str(e)}`. An empty ranking yields the `IndexError` message "list index out of range". A success carries a non-`None` result and implies that the state was built and the classifier answered. |
| Router.Envelope | src/agents/router_agent.py:79-96 | An exception becomes its `str(e)`, a `None` output the "No agent could process the input" error, and any other output the success result. |
| Router.MissingContentMessage | src/agents/router_agent.py:87-91 | `str(KeyError('content'))` is `'content'`, quotes included. |
| Router.DispatchesToTopLabel | src/agents/router_agent.py:50-54 | For any request, exactly the handler of the top label runs, on the whole state. The envelope follows its outcome: an exception becomes `Error(str(e))`, `None` becomes "No agent could process the input", anything else is the success result. |
| Router.UnknownLabelIsKeyError | tests/test_router_agent.py:21-27 | A top label that is not a graph node ends as `Error(repr(label))`, which is how Python shows a `KeyError`. |
| Router.ApostropheLabelMessage | tests/test_router_agent.py:21-27 | A top label `it's` ends as `Error('"it\'s"')`: `repr` switches to double quotes. |
| PyValues.Message | src/agents/router_agent.py:87-91 | `str(e)` in the error envelope: a `KeyError(k)` shows `repr(k)`, every other exception shows its message text. |
| PyValues.Repr | src/agents/router_agent.py:87-91 | `repr` of a string opens and closes with the same quote and is at least two characters longer than the string. |
| PyValues.ReprChar | src/agents/router_agent.py:87-91 | A character is written unchanged exactly when it is neither the enclosing quote, nor a backslash, nor a character `repr` escapes. |
| PyValues.PlainRepr | src/agents/router_agent.py:87-91 | A string without quotes, backslashes or escaped control characters is shown as itself between single quotes. |
| PyValues.ReprOfApostrophe | src/agents/router_agent.py:87-91 | `repr("it's")` is `"it's"` in double quotes. |
| PyValues.ReprOfBothQuotes | src/agents/router_agent.py:87-91 | A string holding both quotes is shown between single quotes with the single quote escaped. |
| Router.RouterLabelEchoes | tests/test_router_agent.py:21-27 | A top label "router" re-runs the router node, and its label string is the success result. |
| Router.HelloIsHandledAsText | tests/test_router_agent.py:98-101 | With a classifier that always ranks "text" first, `{"content": "hello"}` is answered with `{"handled_by": "text"}`. |
| Router.Response.AsDict | src/agents/router_agent.py:79-96 | A success envelope has exactly status/result/source with source "agent". An error envelope has exactly status/message and no source. |
| ShortTerm.New | src/core/memory/short_term.py:11-12 | A new memory has an empty buffer of the given capacity. A negative capacity is rejected with `ValueError`, as `deque(maxlen=…)` does. |
| ShortTerm.Add | src/core/memory/short_term.py:19-21 | The buffer stays within capacity and `_add` returns its argument. Below capacity the message is appended. At capacity the oldest message is evicted. Capacity 0 keeps nothing. |
| ShortTerm.AddAllKeepsLastWindow | src/core/memory/short_term.py:12-21 | After adding m1..mk the buffer is the last `capacity` elements of the old buffer followed by m1..mk, in insertion order. |
| ShortTerm.LastWindowTwice | src/core/memory/short_term.py:12 | Evicting down to the window after each append equals evicting once at the end. |
| ShortTerm.FromEmptyKeepsLastMessages | src/core/memory/short_term.py:11-21 | From empty, the buffer is the last min(k, capacity) messages added. |
| ShortTerm.DefaultKeepsLastFive | src/core/memory/short_term.py:11-21 | With the default capacity 5, a fresh memory exists and keeps the last five messages added. |
| ShortTerm.CapacityTwoExample | src/core/memory/short_term.py:12-21 | Capacity 2 with "a","b","c" leaves ["b","c"]. |
| ShortTerm.Summarize | src/core/memory/short_term.py:23-28 | The result is the summariser's answer for the space-joined buffer. If the summariser raises, it is exactly that joined text. The buffer is an input only, so it is not changed. |
| ShortTerm.Join | src/core/memory/short_term.py:24 | No messages join to "". Otherwise the joined text starts with the first message and ends with the last. |
| ShortTerm.GetContext | src/core/memory/short_term.py:34-35 | `get_context` lists the buffer, oldest first, and never more than `capacity` messages. |
| ShortTerm.JoinLength | src/core/memory/short_term.py:24 | The joined text is as long as the messages plus one separator between each pair. |
| ShortTerm.JoinSnoc | src/core/memory/short_term.py:24 | Joining one more message appends a space and that message. |
| ShortTerm.AddAndSummarize | src/core/memory/short_term.py:30-32 | Taken as `_add` then `_summarize`: the buffer is the one `_add` leaves, and the result is that buffer's summary. |
| ShortTerm.FallbackSummaryEndsWithMessage | src/core/memory/short_term.py:19-28 | When the summariser raises, the text returned after adding a message ends with that message. |
| JsonString.EscapeChar | src/core/memory/long_term.py:28 | A character is written as itself exactly when it is printable ASCII other than `"` and `\`. Otherwise it becomes an escape of 2, 6 or 12 characters starting with a backslash, and 12 (a surrogate pair) exactly for characters above U+FFFF. |
| JsonString.EscapeBody | src/core/memory/long_term.py:28 | The escaped text is at least as long as the string, and exactly as long iff every character is plain, in which case it is the string itself. |
| JsonString.DecodeEscape | src/core/memory/long_term.py:19 | A lone backslash at the end is an unterminated string. A decoded escape spans 2 characters iff it is not a `\u` escape, and 6 or 12 otherwise; 12 (a surrogate pair) exactly when the character is above U+FFFF. |
| JsonString.Encode | src/core/memory/long_term.py:28 | The literal opens and closes with a double quote and is at least the string's length plus two. |
| JsonString.DecodeBody | src/core/memory/long_term.py:19 | On success, what follows the literal is a suffix of the input directly after the closing quote, and strictly shorter than the input. |
| JsonString.EncodePrintable | src/core/memory/long_term.py:28 | An encoded string consists of printable ASCII characters only, so it holds no newline. |
| JsonString.Hex4RoundTrip | src/core/memory/long_term.py:16-28 | The four lower-case hex digits of a code unit parse back to it. |
| JsonString.EscapeCharDecodes | src/core/memory/long_term.py:16-28 | Each escape the encoder writes (short escapes, `\uXXXX`, surrogate pairs) decodes to the original character and spans exactly the escape. An unescaped character is itself printable and not a quote. |
| JsonString.BmpEscapeDecodes | src/core/memory/long_term.py:16-28 | A `\uXXXX` escape of a character below U+10000 decodes back to it. |
| JsonString.AstralEscapeDecodes | src/core/memory/long_term.py:16-28 | The surrogate-pair escape of a character above U+FFFF decodes back to it. |
| JsonString.BodyRoundTrip | src/core/memory/long_term.py:16-28 | Decoding an escaped body followed by the closing quote gives back the string and leaves what follows the quote. |
| JsonString.RoundTrip | src/core/memory/long_term.py:16-28 | `json.loads(json.dumps(s)) == s`, with trailing text handed back untouched. |
| LongTerm.EncodeRecordHasNoNewline | src/core/memory/long_term.py:27-28 | The JSON text of a record has no raw newline, so each record is exactly one line. |
| LongTerm.DecodeRecord | src/core/memory/long_term.py:19 | Every failure is a JSON decode error. A line that parses starts with `{"message": "`. |
| LongTerm.Lines | src/core/memory/long_term.py:18 | Iterating the file yields non-empty lines. |
| LongTerm.LinesShape | src/core/memory/long_term.py:18 | Every line but the last ends in a newline, and no line holds a newline before its last character. |
| LongTerm.LinesConcat | src/core/memory/long_term.py:17-18 | The lines, newlines included, concatenate back to the file's contents. |
| LongTerm.DecodeAll | src/core/memory/long_term.py:18-19 | The loop succeeds iff every line parses, and record i is then the parse of line i. Every failure is a JSON decode error. |
| LongTerm.Load | src/core/memory/long_term.py:16-19 | An empty file loads no records. A load succeeds iff every line of the file parses, and record i is the parse of line i. Every failure is a JSON decode error. |
| LongTerm.DecodeRecordLine | src/core/memory/long_term.py:18-28 | Parsing a written line (newline included) gives back the record. |
| LongTerm.LinesOfLine | src/core/memory/long_term.py:17-28 | A written record line is read back as one line. |
| LongTerm.LinesAppend | src/core/memory/long_term.py:17-28 | Appending a line to a newline-terminated file adds exactly one line at the end of what iteration yields. |
| LongTerm.DecodeAllSnoc | src/core/memory/long_term.py:17-19 | Parsing one more line appends its record to the loaded records. |
| LongTerm.LoadAppend | src/core/memory/long_term.py:16-28 | Loading a file after one record line is appended gives the old records plus that record. |
| LongTerm.Open | src/core/memory/long_term.py:11-19 | Without a storage file the store is empty. A file that cannot be read raises its error. A readable file opens iff it loads, the records are what it loads to, and a load error propagates. The store keeps the file and the configured endpoint and key. |
| LongTerm.OpenConsistent | src/core/memory/long_term.py:11-19 | A store opened from a newline-terminated file holds exactly the records that reading the file gives. |
| LongTerm.Add | src/core/memory/long_term.py:21-28 | In local mode the record `{"message": m}` is appended to the records first, earlier records unchanged. Its line is then appended to the file; if that append raises, the error is the outcome and the file is unchanged. In remote mode (endpoint and key both truthy) the store is unchanged and the outcome is the remote write's. |
| LongTerm.AddPreservesConsistent | src/core/memory/long_term.py:21-28 | Every add that does not raise keeps the records and the file in agreement. |
| LongTerm.FailedAppendLosesRecord | src/core/memory/long_term.py:26-28 | When the file append raises, `get_all()` still gains the message, the store no longer matches its file, and reopening the file gives the store as it was before the call. |
| LongTerm.ReopenRecoversMessages | src/core/memory/long_term.py:16-31 | Reopening a consistent store from its file yields the same `get_all()`. |
| LongTerm.GetAll | src/core/memory/long_term.py:30-31 | The messages, one per record, in record order. |
| LongTerm.AddAppendsMessage | src/core/memory/long_term.py:21-31 | After a local add, `get_all()` is the old list plus the message. |
| LongTerm.AddAllLocalAppends | src/core/memory/long_term.py:21-31 | After k local adds, `get_all()` is the old list followed by the k messages, whether or not the file appends raise. |
| VectorDb.New | src/core/knowledge_base/vector_db.py:11-13 | A new store has empty, equal-length lists. |
| VectorDb.Add | src/core/knowledge_base/vector_db.py:17-22 | In local mode the vector and text are appended together. The old entries are unchanged and the lists keep equal lengths. In remote mode the local lists are unchanged, or the remote error propagates. |
| VectorDb.DotTruncates | src/core/knowledge_base/vector_db.py:33 | A score depends only on the common prefix of vector and query, as `zip` truncates. |
| VectorDb.Insert | src/core/knowledge_base/vector_db.py:34 | Inserting an index into a ranking keeps it ranked and adds exactly that index. |
| VectorDb.RankPrefix | src/core/knowledge_base/vector_db.py:34 | The sort of `range(n)` is ranked (higher score first, ties in index order) and is a permutation of `range(n)`. |
| VectorDb.RankIsPermutation | src/core/knowledge_base/vector_db.py:34 | The ranking lists every index exactly once. |
| VectorDb.RankedIsUnique | src/core/knowledge_base/vector_db.py:34 | Two ranked arrangements of the same indices are equal. |
| VectorDb.RankIsTheStableSort | src/core/knowledge_base/vector_db.py:34 | Any stable descending sort of `range(n)` by score equals the ranking used. |
| VectorDb.Take | src/core/knowledge_base/vector_db.py:34 | `xs[:k]` is a prefix of length min(k, n) for k ≥ 0, and drops -k items from the end for k < 0. |
| VectorDb.TopIndicesAreBest | src/core/knowledge_base/vector_db.py:33-35 | No index left out of the top k scores higher than a returned one. On equal scores the returned one was inserted earlier. |
| VectorDb.SearchOrdered | src/core/knowledge_base/vector_db.py:33-35 | Returned entries come in non-increasing score order, ties in insertion order. |
| VectorDb.Search | src/core/knowledge_base/vector_db.py:24-35 | An empty local store gives []. For top_k ≥ 0 exactly min(top_k, n) texts are returned. Entry p is the text of the p-th best index. In remote mode the result is the service's "texts", or [] when the response has none, and a service error propagates. |
| VectorDb.DefaultSearchIsBest | src/core/knowledge_base/vector_db.py:24-35 | With the default top_k 1, a local search of a non-empty store returns exactly one text, that of the entry scoring above every other (ties to the earlier entry). |
| FileAgent.Process | src/agents/expert_agents/file_agent.py:10-54 | "pdf" and "csv" select their branch, and any other type raises `ValueError("Unsupported file type: <type>")`. A success has type "file", the path as input, and metadata exactly file_type and the fixed timestamp. The PDF branch succeeds iff the PDF opens and every page yields text, and its output is the page texts concatenated. The CSV branch returns the table. |
| FileAgent.AccumulateIsConcat | src/agents/expert_agents/file_agent.py:27-29 | The page loop succeeds iff no page yields `None` (otherwise `str += None` raises `TypeError`). It then appends the page texts in order. |
| FileAgent.PdfText | src/agents/expert_agents/file_agent.py:25-29 | The PDF text is the concatenation of the page texts in page order, and "" for zero pages. |
| FileAgent.TypeNamesAreCaseSensitive | src/agents/expert_agents/file_agent.py:14-19 | "PDF" and "" are rejected with the `ValueError` message. |
| PdfProcessor.ExtractText | src/services/file_processing/pdf_processor.py:7-15 | An error opening or reading the PDF propagates. Otherwise the result is the non-empty page texts concatenated in order. |
| PdfProcessor.PagesText | src/services/file_processing/pdf_processor.py:11-15 | The loop over an opened document's pages never fails. Its text is as long as the non-empty page texts together, and a document without pages gives "". |
| PdfProcessor.AccumulateIsConcat | src/services/file_processing/pdf_processor.py:11-14 | The loop that skips `None` and empty pages appends exactly the non-empty page texts. |
| PdfProcessor.SkippingEmptyPagesIsHarmless | src/services/file_processing/pdf_processor.py:12-14 | When every page has text, skipping the empty ones does not change the concatenation. |
| PdfProcessor.AgreesWithFileAgent | src/services/file_processing/pdf_processor.py:7-15 | On a document whose every page yields text, the processor and the file agent produce the same text. |
| LinkAgent.TitleOf | src/agents/expert_agents/link_agent.py:17 | No title element gives "No Title". A title element without a single string gives `None`. Otherwise it is the title's string. |
| LinkAgent.ContentOf | src/agents/expert_agents/link_agent.py:18 | No `<p>` gives "No Content"; otherwise it is the first paragraph's text. |
| LinkAgent.Process | src/agents/expert_agents/link_agent.py:9-30 | A fetch error propagates. Otherwise the result has type "link", the URL as input, output with exactly title and content, and metadata exactly source = URL and the fixed timestamp. |
| LinkAgent.EmptyPageDefaults | src/agents/expert_agents/link_agent.py:17-18 | A page without title and paragraphs gets both fixed texts. |
| Routes.RFind | src/services/api/fastapi_app/routes.py:27 | `rfind` gives the last occurrence, or -1 when there is none. |
| Routes.SplitExt | src/services/api/fastapi_app/routes.py:27 | `splitext` splits the path into root and extension that concatenate back to it. |
| Routes.ComponentDot | src/services/api/fastapi_app/routes.py:27 | The dot `splitext` splits at, when it lies after the last '/', is the last dot of the last path component. |
| Routes.RawExtIsRawExtensionOf | src/services/api/fastapi_app/routes.py:27 | Before lower-casing, the computed type is the text after the last dot of the last component when something other than dots precedes that dot, and empty otherwise. |
| Routes.LStripDots | src/services/api/fastapi_app/routes.py:27 | `lstrip(".")` is no longer than its argument and does not start with a dot. |
| Routes.LStripDotsDropsDots | src/services/api/fastapi_app/routes.py:27 | The stripped text is a suffix of the argument, and everything dropped before it is a dot. |
| Routes.AsciiLower | src/services/api/fastapi_app/routes.py:27 | `lower()` keeps the length, leaves no upper-case ASCII letter, moves each upper-case letter 32 code points up to its lower-case form, and keeps every other character. |
| Routes.AsciiLowerIdempotent | src/services/api/fastapi_app/routes.py:27 | Lower-casing twice is lower-casing once. |
| Routes.FileExt | src/services/api/fastapi_app/routes.py:27 | The derived type contains no '.' and no '/', and it is either empty or shorter than the filename. |
| Routes.RawExtHasNoDotOrSlash | src/services/api/fastapi_app/routes.py:27 | Before lower-casing, the same holds: the text after the split dot holds no dot and no '/'. |
| Routes.FileExtIsExtensionOf | src/services/api/fastapi_app/routes.py:27 | The same holds after lower-casing. |
| Routes.FileExtLastDot | src/services/api/fastapi_app/routes.py:27 | "a.tar.gz" gives "gz". |
| Routes.FileExtDotfile | src/services/api/fastapi_app/routes.py:27 | ".env" gives "". |
| Routes.FileExtNoDot | src/services/api/fastapi_app/routes.py:27 | "README" gives "". |
| Routes.FileExtLowerCases | src/services/api/fastapi_app/routes.py:27 | "report.PDF" gives "pdf", a type the file agent accepts. |
| Routes.JoinPath | src/services/api/fastapi_app/routes.py:28 | An absolute filename replaces the directory. Otherwise the filename follows the directory directly when the directory is empty or ends in '/', and after one inserted '/' when it does not. |
| Routes.AbsoluteFilenameEscapesUploadDir | src/services/api/fastapi_app/routes.py:27-28 | An absolute filename is routed with itself as the stored path, outside the upload directory. |
| Routes.FileRequest | src/services/api/fastapi_app/routes.py:32-35 | The routed request has exactly content = stored path and metadata exactly `{"file_type": ext}`. |
| Routes.UploadState | src/services/api/fastapi_app/routes.py:32-36 | The router's state for an upload is exactly input = stored path and file_type = derived type. |
| Routes.Upload | src/services/api/fastapi_app/routes.py:24-36 | An upload answers what the router answers for that request. |
| Routes.Health | src/services/api/fastapi_app/routes.py:14-17 | `/health` always returns exactly `{"status": "ok"}`. |
| Routes.Process | src/services/api/fastapi_app/routes.py:19-22 | `/process` forwards its body unchanged to the router. |
| Routes.UploadReportPdfAsWritten | src/agents/router_agent.py:50-54 | Uploading "report.PDF" with "file" ranked first ends in the `TypeError` message of the file node as wired. |
| Routes.UploadReportPdf | src/services/api/fastapi_app/routes.py:24-36 | With the corrected file node, uploading "report.PDF" with "file" ranked first succeeds iff the PDF opens and every page yields text. The result is then the file agent's PDF result for the stored path. |
| Models.Registry | src/models/model_registry.py:4-8 | The registry has exactly the keys classification, summarization and image_caption. Each holds its environment variable when set and otherwise its local model name. |
| Models.GetModelInfo | src/models/model_registry.py:11-15 | A registered task gives its entry. Any other task raises `ValueError("No model registered for task: <task>")`. |
| Models.LoadModel | src/models/model_loader.py:6-34 | The registry error comes first. A name starting with "http" gives the remote caller with the API key from the environment (or none). Otherwise a missing `pipeline` raises `RuntimeError`, and `pipeline(task, model=name)` gives the local pipeline or raises its own error. |
| Models.DefaultsLoadLocally | src/models/model_registry.py:5-7 | With no deployment variables set, every task takes the local branch with its default model: without transformers it raises `RuntimeError`, with it the outcome is what `pipeline` does for that task and model. |
| Models.RejectedTaskFailsToLoad | src/models/model_loader.py:31-34 | When `pipeline` rejects the task "classification", loading the default classifier raises that error. |
| Models.HttpsIsRemote | src/models/model_loader.py:23-29 | An "https" deployment is remote whether or not an API key is set. |
| Models.UnknownTaskFailsFirst | src/models/model_loader.py:20 | Every task outside classification, summarization and image_caption fails with the registry's `ValueError("No model registered for task: <task>")`, whatever `pipeline` is. |
| Models.UnknownTaskShown | src/models/model_loader.py:20 | The same with the message written out. |
| Models.TranslationIsUnregistered | src/models/model_loader.py:20 | "translation" is such a task. |
| Wiring.FileNodeAsWritten | src/agents/router_agent.py:50-54 | The file node as wired raises the missing-argument `TypeError` for every state, before the agent runs. |
| Wiring.RunFileNode | src/agents/expert_agents/file_agent.py:10-19 | The corrected node raises `KeyError('input')` without an input. A "file_type" other than the strings "pdf" and "csv" (a missing one reads as "") raises the agent's `ValueError` with `str` of the type, whatever the input. A success is the agent's result for the state's path and type, as a dictionary. |
| PyValues.Decimal | src/agents/expert_agents/file_agent.py:19 | `str` of a natural number is a non-empty run of decimal digits without a leading zero (except "0" itself). |
| PyValues.DecimalRoundTrip | src/agents/expert_agents/file_agent.py:19 | Reading the digits back gives the number. |
| PyValues.IntStr | src/agents/expert_agents/file_agent.py:19 | `str` of an integer starts with a minus sign exactly when it is negative. |
| PyValues.PyStr | src/agents/expert_agents/file_agent.py:19 | `str(v)` in the f-string: a string is itself, anything else is its `repr`. |
| PyValues.PyRepr | src/agents/expert_agents/file_agent.py:19 | `repr` of a string is `Repr`, and of a list opens with '[' and closes with ']'. |
| Wiring.FileRoutedRequestsFailAsWritten | src/agents/router_agent.py:50-54 | As wired, every request routed to "file" ends in an error envelope. |
| Wiring.FileNodeRunsAgent | src/agents/router_agent.py:50-54 | The corrected file node runs the file agent on the state's input and "file_type" entries. |
| Strings.ConcatAppend | src/agents/expert_agents/file_agent.py:27-29 | Concatenation distributes over splitting the list of parts. |
| Strings.ConcatLength | src/services/file_processing/pdf_processor.py:11-15 | A concatenation is as long as its parts together. |

## Left out

- The real constructor reads `self.labels` in `_build_workflow` (src/agents/router_agent.py:26, 50) before assigning it (line 29). As written it raises `AttributeError` on construction. The model follows the graph built once the labels are set, which is how the test suite builds it.
- The LangGraph `MessageGraph` streaming internals are not visible. The graph runs the router node, then the labelled node, then yields one item. The edges and the `print` in `_route_input` play no part.
- The text, image and link nodes pass the whole state dictionary to agents whose `process` takes a string. What those agents then do with a dictionary is not modelled: they are `Handler` parameters.
- Router.BuildState: `dict.update` also accepts an iterable of pairs. The model accepts only a mapping and reports anything else as a `TypeError` whose message is not Python's.
- PyValues.Repr: characters above U+00FF that Python counts as non-printable are kept as they are, where `repr` writes them as `\uXXXX` or `\UXXXXXXXX`. Printability there comes from the Unicode database.
- Router.ProcessInput: it does not state that an error message differs from "No agent could process the input", because a foreign exception can carry that same text.
- ShortTerm.AddAndSummarize: `add_and_summarize` returns the first item the graph streams. It is taken as `_add` followed by `_summarize`.
- ShortTerm.New: `capacity=None` (an unbounded deque) is not modelled; capacities are integers.
- LongTerm.DecodeRecord: it parses only lines of the form the store writes. Any other JSON line is a decode error, although `json.loads` would accept it and `get_all` would then read its "message". Decode error messages are not Python's.
- LongTerm.OpenConsistent: it assumes the file ends with a newline. A file whose last record lacks one still loads, but the next append would join two records on one line.
- LongTerm.Add: a file append that raises is taken to have written nothing. A write that fails after writing part of the line is not modelled.
- LongTerm.Open: the storage path, "long_term_memory.json" by default, is not modelled; the caller supplies what the path holds (`StoredFile`).
- Universal-newline translation on reading ("\r\n" and "\r" as line ends) is not modelled. The encoder never writes raw "\r", so it matters only for files edited by hand.
- JsonString: a string holding a lone surrogate cannot occur, because Dafny `char` values are Unicode scalar values. The decoder rejects unpaired surrogate escapes.
- VectorDb: scores are integers, whereas the source multiplies floats. Rounding and NaN ordering are not modelled.
- VectorDb.Search: in remote mode the response is modelled by its optional "texts" field.
- FileAgent: `df.to_dict()` is an opaque `Value`, and the PDF and CSV readers are parameters. The internals of PyPDF2, pandas and BeautifulSoup are out of scope.
- LinkAgent: the HTTP fetch and HTML parsing are one `Fetch` parameter. Only the title and first paragraph it yields are modelled.
- Routes: the byte copy into the upload directory (routes.py:29-30) and the creation of that directory are I/O and not modelled.
- PyValues.PyRepr: a non-empty dict is shown as "{...}". Python lists its entries in insertion order, which a Dafny map does not keep.
- Wiring.RunFileNode: a non-string input with the type "pdf" or "csv" reaches the PDF or CSV reader in Python, whose exception is not known here; the model raises a `TypeError`.
- Routes.AsciiLower: `str.lower()` is modelled on ASCII letters only.
- Routes: paths follow POSIX `os.path`; Windows separators and drive letters are not modelled.
- Models.LoadModel: the returned callables are the tags `RemoteCaller`/`LocalPipeline`. What they do when called (`call_azure`, the transformers pipeline) is not modelled. Which task names transformers' `pipeline` accepts is up to the `pipeline` parameter.
- The FastAPI app, the websocket handler, the frontend, the Azure and Cosmos clients, external sources, the text and image agents and processors, and `TaskDecomposer` are wrappers around foreign code. They are not part of this model.

## Findings

| source | as written | input that shows it | evidently intended | confidence | as-written member | corrected member |
|---|---|---|---|---|---|---|
| src/agents/router_agent.py:50-54 | Each label node calls `self.agents[label].process(state)` with the state as the only argument, but `FileAgent.process` takes `(file_path, file_type)`. Every request routed to "file" fails with `TypeError: … missing 1 required positional argument: 'file_type'`. | an upload of "report.PDF" (routed as `{content: path, metadata: {file_type: "pdf"}}`) whose input the classifier ranks "file" first | the file node passes `state["input"]` as the path and the state's "file_type" as the type, so an uploaded PDF is read | not executed | Wiring.FileRoutedRequestsFailAsWritten, Routes.UploadReportPdfAsWritten | Wiring.FileNodeRunsAgent, Routes.UploadReportPdf |

=== FILE: file_agent.dfy ===
/** The file agent: dispatches on the file type, extracting a PDF's text
    page by page or reading a CSV table. */
module FileAgent {
  import opened Wrappers
  import opened PyValues
  import Strings

  /** Opens a PDF and extracts the text of each page in order (`None` for a
      page that yields no text); may raise. */
  type PdfPages = string -> Result<seq<Option<string>>, Exception>

  /** Reads a CSV file into `df.to_dict()`; may raise. */
  type CsvTable = string -> Result<Value, Exception>

  /** What `str += None` raises. */
  const NoneConcatMessage: string := "can only concatenate str (not \"NoneType\") to str"

  predicate AllExtracted(pages: seq<Option<string>>) {
    forall i :: 0 <= i < |pages| ==> pages[i].Some?
  }

  function Texts(pages: seq<Option<string>>): (r: seq<string>)
    requires AllExtracted(pages)
    ensures |r| == |pages| && forall i :: 0 <= i < |r| ==> Some(r[i]) == pages[i]
  {
    seq(|pages|, i requires 0 <= i < |pages| => pages[i].value)
  }

  /** The loop `for page in reader.pages: text += page.extract_text()`,
      continued from the text accumulated so far. */
  function Accumulate(text: string, pages: seq<Option<string>>): Result<string, Exception>
    decreases |pages|
  {
    if |pages| == 0 then Success(text)
    else if pages[0].None? then Failure(TypeError(NoneConcatMessage))
    else Accumulate(text + pages[0].value, pages[1..])
  }

  /** The loop succeeds exactly when every page has text, and then appends
      the page texts in order. */
  lemma {:induction false} AccumulateIsConcat(text: string, pages: seq<Option<string>>)
    ensures Accumulate(text, pages).Success? <==> AllExtracted(pages)
    ensures AllExtracted(pages) ==> Accumulate(text, pages).value == text + Strings.Concat(Texts(pages))
    ensures !AllExtracted(pages) ==> Accumulate(text, pages) == Failure(TypeError(NoneConcatMessage))
    decreases |pages|
  {
    if |pages| > 0 {
      if pages[0].Some? {
        AccumulateIsConcat(text + pages[0].value, pages[1..]);
        assert AllExtracted(pages) <==> AllExtracted(pages[1..]);
        if AllExtracted(pages) {
          assert Texts(pages) == [pages[0].value] + Texts(pages[1..]);
        }
      }
    }
  }

  /** `_process_pdf`'s text: the page texts concatenated in page order. */
  function PdfText(pages: seq<Option<string>>): (r: Result<string, Exception>)
    ensures r.Success? <==> AllExtracted(pages)
    ensures r.Success? ==> r.value == Strings.Concat(Texts(pages))
    ensures |pages| == 0 ==> r == Success("")
  {
    AccumulateIsConcat("", pages);
    Accumulate("", pages)
  }

  /** The metadata of a file result. */
  function Metadata(fileType: string): map<string, string> {
    map["file_type" := fileType, "timestamp" := Timestamp]
  }

  /** `process(file_path, file_type)`: "pdf" and "csv" select their branch,
      every other type raises `ValueError`. */
  function Process(path: string, fileType: string, pdf: PdfPages, csv: CsvTable): (r: Result<AgentResult, Exception>)
    ensures fileType != "pdf" && fileType != "csv" ==> r == Failure(ValueError("Unsupported file type: " + fileType))
    ensures r.Success? ==>
              && r.value.kind == "file" && r.value.input == path
              && r.value.metadata.Keys == {"file_type", "timestamp"}
              && r.value.metadata["file_type"] == fileType
              && r.value.metadata["timestamp"] == Timestamp
    ensures fileType == "pdf" ==>
              && (r.Success? <==> pdf(path).Success? && AllExtracted(pdf(path).value))
              && (r.Success? ==> r.value.output == Str(Strings.Concat(Texts(pdf(path).value))))
    ensures fileType == "csv" ==>
              && (r.Success? <==> csv(path).Success?)
              && (r.Success? ==> r.value.output == csv(path).value)
  {
    if fileType == "pdf" then
      match pdf(path)
      case Failure(e) => Failure(e)
      case Success(pages) =>
        match PdfText(pages)
        case Failure(e) => Failure(e)
        case Success(text) => Success(AgentResult("file", path, Str(text), Metadata("pdf")))
    else if fileType == "csv" then
      match csv(path)
      case Failure(e) => Failure(e)
      case Success(table) => Success(AgentResult("file", path, table, Metadata("csv")))
    else Failure(ValueError("Unsupported file type: " + fileType))
  }

  /** Only the lower-case names are accepted: "PDF" and "" are rejected. */
  lemma TypeNamesAreCaseSensitive(path: string, pdf: PdfPages, csv: CsvTable)
    ensures Process(path, "PDF", pdf, csv) == Failure(ValueError("Unsupported file type: PDF"))
    ensures Process(path, "", pdf, csv) == Failure(ValueError("Unsupported file type: "))
  {
    assert "PDF"[0] != "pdf"[0] && "PDF"[0] != "csv"[0];
    assert "Unsupported file type: " + "" == "Unsupported file type: ";
    assert "Unsupported file type: " + "PDF" == "Unsupported file type: PDF";
  }
}

=== FILE: json_string.dfy ===
/** JSON string literals as `json.dumps` writes them with its default
    `ensure_ascii=True` (section 7 of RFC 8259): `"` and `\` are escaped,
    backspace, form feed, newline, carriage return and tab get their short
    escapes, every other character below U+0020 and every character from
    U+007F up becomes `\uXXXX` in lower-case hex, a surrogate pair above
    U+FFFF. The decoder is the matching subset of `json.loads`. */
module JsonString {
  import opened Wrappers

  const Backspace: char := 8 as char
  const FormFeed: char := 12 as char

  /** The characters an ASCII-only encoder may write: U+0020 to U+007E. */
  predicate IsPrintableAscii(c: char) {
    ' ' <= c <= '~'
  }

  function HexDigit(d: nat): (c: char)
    requires d < 16
    ensures IsPrintableAscii(c)
  {
    if d < 10 then ('0' as int + d) as char else ('a' as int + d - 10) as char
  }

  /** The value of a hex digit of either case. */
  function HexValue(c: char): (r: Option<nat>)
    ensures r.Some? ==> r.value < 16
  {
    if '0' <= c <= '9' then Some(c as int - '0' as int)
    else if 'a' <= c <= 'f' then Some(c as int - 'a' as int + 10)
    else if 'A' <= c <= 'F' then Some(c as int - 'A' as int + 10)
    else None
  }

  /** Four lower-case hex digits, most significant first (`{0:04x}`). */
  function Hex4(n: nat): (r: string)
    requires n < 0x1_0000
    ensures |r| == 4
  {
    var r1 := n % 0x1000;
    var r2 := r1 % 0x100;
    [HexDigit(n / 0x1000), HexDigit(r1 / 0x100), HexDigit(r2 / 0x10), HexDigit(r2 % 0x10)]
  }

  /** The number four hex digits spell. */
  function ParseHex4(s: string): (r: Option<nat>)
    requires |s| == 4
    ensures r.Some? ==> r.value < 0x1_0000
  {
    match (HexValue(s[0]), HexValue(s[1]), HexValue(s[2]), HexValue(s[3]))
    case (Some(a), Some(b), Some(c), Some(d)) => Some(a * 0x1000 + b * 0x100 + c * 0x10 + d)
    case _ => None
  }

  /** `\uXXXX` for one UTF-16 code unit. */
  function UnicodeEscape(n: nat): (r: string)
    requires n < 0x1_0000
    ensures |r| == 6 && r[0] == '\\' && r[1] == 'u' && r[2..] == Hex4(n)
  {
    "\\u" + Hex4(n)
  }

  /** The characters written as themselves: printable ASCII other than
      the quote and the backslash. */
  predicate IsPlain(c: char) {
    IsPrintableAscii(c) && c != '"' && c != '\\'
  }

  /** How one character is written inside the quotes: itself when plain,
      otherwise an escape sequence of 2, 6 or 12 characters. */
  function EscapeChar(c: char): (r: string)
    ensures IsPlain(c) <==> r == [c]
    ensures !IsPlain(c) ==> (|r| == 2 || |r| == 6 || |r| == 12) && r[0] == '\\'
    ensures |r| == 12 <==> c as int >= 0x1_0000
  {
    if c == '"' then "\\\""
    else if c == '\\' then "\\\\"
    else if c == '\n' then "\\n"
    else if c == '\r' then "\\r"
    else if c == '\t' then "\\t"
    else if c == Backspace then "\\b"
    else if c == FormFeed then "\\f"
    else if IsPrintableAscii(c) then [c]
    else if c as int < 0x1_0000 then UnicodeEscape(c as int)
    else
      var v := c as int - 0x1_0000;
      UnicodeEscape(0xD800 + v / 0x400) + UnicodeEscape(0xDC00 + v % 0x400)
  }

  /** The escaped characters of a string, without the surrounding quotes. */
  function EscapeBody(s: string): (r: string)
    ensures |r| >= |s|
    ensures |r| == |s| <==> forall i :: 0 <= i < |s| ==> IsPlain(s[i])
    ensures (forall i :: 0 <= i < |s| ==> IsPlain(s[i])) ==> r == s
  {
    if |s| == 0 then "" else EscapeChar(s[0]) + EscapeBody(s[1..])
  }

  /** The JSON string literal for `s`. */
  function Encode(s: string): (r: string)
    ensures |r| >= |s| + 2
    ensures r[0] == '"' && r[|r| - 1] == '"'
  {
    "\"" + EscapeBody(s) + "\""
  }

  /** Decodes the escape sequence at the front of `t`, giving the character
      and how many characters of `t` it spans. A `\u` escape naming half of a
      surrogate pair must be followed by the other half. */
  function DecodeEscape(t: string): (r: Result<(char, nat), string>)
    requires |t| > 0 && t[0] == '\\'
    ensures r.Success? ==> 2 <= r.value.1 <= |t|
    ensures |t| < 2 ==> r == Failure("Unterminated string")
    ensures r.Success? ==> (r.value.1 == 2 <==> t[1] != 'u')
    ensures r.Success? ==> r.value.1 == 2 || r.value.1 == 6 || r.value.1 == 12
    ensures r.Success? && r.value.1 == 12 ==> r.value.0 as int >= 0x1_0000
    ensures r.Success? && r.value.1 != 12 ==> r.value.0 as int < 0x1_0000
  {
    if |t| < 2 then Failure("Unterminated string")
    else
      var e := t[1];
      if e == '"' then Success(('"', 2))
      else if e == '\\' then Success(('\\', 2))
      else if e == '/' then Success(('/', 2))
      else if e == 'b' then Success((Backspace, 2))
      else if e == 'f' then Success((FormFeed, 2))
      else if e == 'n' then Success(('\n', 2))
      else if e == 'r' then Success(('\r', 2))
      else if e == 't' then Success(('\t', 2))
      else if e != 'u' || |t| < 6 then Failure("Invalid \\escape")
      else match ParseHex4(t[2..6])
        case None => Failure("Invalid \\uXXXX escape")
        case Some(u) =>
          if u < 0xD800 || 0xE000 <= u then Success((u as char, 6))
          else if 0xDC00 <= u then Failure("Unpaired surrogate")
          else if |t| < 12 || t[6] != '\\' || t[7] != 'u' then Failure("Unpaired surrogate")
          else match ParseHex4(t[8..12])
            case None => Failure("Invalid \\uXXXX escape")
            case Some(l) =>
              if 0xDC00 <= l < 0xE000 then
                Success(((0x1_0000 + (u - 0xD800) * 0x400 + (l - 0xDC00)) as char, 12))
              else Failure("Unpaired surrogate")
  }

  /** Decodes the characters of a string literal after its opening quote, up
      to and including the closing quote; gives the decoded string and what
      follows the closing quote. Raw control characters are rejected. */
  function DecodeBody(t: string): (r: Result<(string, string), string>)
    ensures r.Success? ==> |r.value.1| < |t|
    ensures r.Success? ==> t[|t| - |r.value.1|..] == r.value.1 && t[|t| - |r.value.1| - 1] == '"'
    decreases |t|
  {
    if |t| == 0 then Failure("Unterminated string")
    else if t[0] == '"' then Success(("", t[1..]))
    else if t[0] == '\\' then
      match DecodeEscape(t)
      case Failure(msg) => Failure(msg)
      case Success((c, n)) =>
        match DecodeBody(t[n..])
        case Failure(msg) => Failure(msg)
        case Success((s, rest)) => Success(([c] + s, rest))
    else if t[0] < ' ' then Failure("Invalid control character")
    else
      match DecodeBody(t[1..])
      case Failure(msg) => Failure(msg)
      case Success((s, rest)) => Success(([t[0]] + s, rest))
  }

  lemma HexDigitValue(d: nat)
    requires d < 16
    ensures HexValue(HexDigit(d)) == Some(d)
  {
  }

  lemma Hex4RoundTrip(n: nat)
    requires n < 0x1_0000
    ensures ParseHex4(Hex4(n)) == Some(n)
  {
    var r1 := n % 0x1000;
    var r2 := r1 % 0x100;
    HexDigitValue(n / 0x1000);
    HexDigitValue(r1 / 0x100);
    HexDigitValue(r2 / 0x10);
    HexDigitValue(r2 % 0x10);
  }

  /** Every encoded character is printable ASCII. */
  lemma {:induction false} EscapeCharPrintable(c: char)
    ensures forall i :: 0 <= i < |EscapeChar(c)| ==> IsPrintableAscii(EscapeChar(c)[i])
  {
  }

  /** The encoding of a string is all printable ASCII; in particular it has
      no raw newline and no raw carriage return. */
  lemma {:induction false} EncodePrintable(s: string)
    ensures forall i :: 0 <= i < |Encode(s)| ==> IsPrintableAscii(Encode(s)[i])
  {
    EscapeBodyPrintable(s);
  }

  lemma {:induction false} EscapeBodyPrintable(s: string)
    ensures forall i :: 0 <= i < |EscapeBody(s)| ==> IsPrintableAscii(EscapeBody(s)[i])
    decreases |s|
  {
    if |s| > 0 {
      EscapeCharPrintable(s[0]);
      EscapeBodyPrintable(s[1..]);
    }
  }

  /** One escape sequence decodes back to the character it was made from. */
  lemma EscapeCharDecodes(c: char, tail: string)
    ensures var t := EscapeChar(c) + tail;
            if EscapeChar(c)[0] == '\\' then
              DecodeEscape(t) == Success((c, |EscapeChar(c)|))
            else
              EscapeChar(c) == [c] && c != '"' && c >= ' '
  {
    var t := EscapeChar(c) + tail;
    if c == '"' || c == '\\' || c == '\n' || c == '\r' || c == '\t' || c == Backspace || c == FormFeed {
    } else if IsPrintableAscii(c) {
    } else if c as int < 0x1_0000 {
      BmpEscapeDecodes(c, tail);
    } else {
      AstralEscapeDecodes(c, tail);
    }
  }

  /** A `\uXXXX` escape of a character below U+10000 decodes to it. */
  lemma BmpEscapeDecodes(c: char, tail: string)
    requires c as int < 0x1_0000
    ensures DecodeEscape(UnicodeEscape(c as int) + tail) == Success((c, 6))
  {
    var t := UnicodeEscape(c as int) + tail;
    assert t[2..6] == Hex4(c as int);
    Hex4RoundTrip(c as int);
  }

  /** The surrogate pair of a character above U+FFFF decodes to it. */
  lemma AstralEscapeDecodes(c: char, tail: string)
    requires c as int >= 0x1_0000
    ensures var v := c as int - 0x1_0000;
            var t := UnicodeEscape(0xD800 + v / 0x400) + UnicodeEscape(0xDC00 + v % 0x400) + tail;
            DecodeEscape(t) == Success((c, 12))
  {
    var v := c as int - 0x1_0000;
    var hi := 0xD800 + v / 0x400;
    var lo := 0xDC00 + v % 0x400;
    var t := UnicodeEscape(hi) + UnicodeEscape(lo) + tail;
    assert t[2..6] == Hex4(hi);
    assert t[6] == '\\' && t[7] == 'u';
    assert t[8..12] == Hex4(lo);
    Hex4RoundTrip(hi);
    Hex4RoundTrip(lo);
    assert 0x1_0000 + (hi - 0xD800) * 0x400 + (lo - 0xDC00) == c as int;
  }

  /** Decoding an encoded body followed by the closing quote gives back the
      string and leaves exactly what followed the quote. */
  lemma {:induction false} BodyRoundTrip(s: string, rest: string)
    ensures DecodeBody(EscapeBody(s) + "\"" + rest) == Success((s, rest))
    decreases |s|
  {
    if |s| == 0 {
      assert EscapeBody(s) + "\"" + rest == "\"" + rest;
    } else {
      var c := s[0];
      var tail := EscapeBody(s[1..]) + "\"" + rest;
      assert EscapeBody(s) + "\"" + rest == EscapeChar(c) + tail;
      EscapeCharDecodes(c, tail);
      BodyRoundTrip(s[1..], rest);
      var t := EscapeChar(c) + tail;
      assert t[|EscapeChar(c)|..] == tail;
      assert [c] + s[1..] == s;
    }
  }

  /** `json.loads(json.dumps(s)) == s`, with anything after the literal
      handed back untouched. */
  lemma RoundTrip(s: string, rest: string)
    ensures |Encode(s) + rest| > 0 && (Encode(s) + rest)[0] == '"'
    ensures DecodeBody((Encode(s) + rest)[1..]) == Success((s, rest))
  {
    assert (Encode(s) + rest)[1..] == EscapeBody(s) + "\"" + rest;
    BodyRoundTrip(s, rest);
  }
}

=== FILE: link_agent.dfy ===
/** The link agent: fetches a page and reports its title and first
    paragraph, with fixed texts for what the page lacks. */
module LinkAgent {
  import opened Wrappers
  import opened PyValues

  /** What the agent reads from the parsed page: `soup.title` (absent, or
      present with a `.string` that is `None` when the element does not hold
      exactly one string) and the text of the first `<p>` element. */
  datatype Page = Page(title: Option<Option<string>>, firstParagraph: Option<string>)

  /** Fetches and parses the page at a URL; may raise. */
  type Fetch = string -> Result<Page, Exception>

  const NoTitle: string := "No Title"
  const NoContent: string := "No Content"

  /** `soup.title.string if soup.title else "No Title"`. */
  function TitleOf(page: Page): (v: Value)
    ensures page.title.None? ==> v == Str(NoTitle)
    ensures page.title == Some(None) ==> v == Null
    ensures page.title.Some? && page.title.value.Some? ==> v == Str(page.title.value.value)
  {
    match page.title
    case None => Str(NoTitle)
    case Some(None) => Null
    case Some(Some(t)) => Str(t)
  }

  /** The first paragraph's text, or "No Content" when the page has none. */
  function ContentOf(page: Page): (s: string)
    ensures page.firstParagraph.None? ==> s == NoContent
    ensures page.firstParagraph.Some? ==> s == page.firstParagraph.value
  {
    page.firstParagraph.GetOr(NoContent)
  }

  /** `process(url)`: a "link" result whose output holds exactly the title
      and the content, and whose metadata names the URL as source. */
  function Process(url: string, fetch: Fetch): (r: Result<AgentResult, Exception>)
    ensures fetch(url).Failure? ==> r == Failure(fetch(url).error)
    ensures fetch(url).Success? ==>
              && r.Success?
              && r.value.kind == "link" && r.value.input == url
              && r.value.output.Dict? && r.value.output.fields.Keys == {"title", "content"}
              && r.value.output.fields["title"] == TitleOf(fetch(url).value)
              && r.value.output.fields["content"] == Str(ContentOf(fetch(url).value))
              && r.value.metadata == map["source" := url, "timestamp" := Timestamp]
  {
    match fetch(url)
    case Failure(e) => Failure(e)
    case Success(page) =>
      Success(AgentResult(
        "link",
        url,
        Dict(map["title" := TitleOf(page), "content" := Str(ContentOf(page))]),
        map["source" := url, "timestamp" := Timestamp]))
  }

  /** A page without a title element and without paragraphs gets both fixed
      texts. */
  lemma EmptyPageDefaults(url: string, fetch: Fetch)
    requires fetch(url) == Success(Page(None, None))
    ensures Process(url, fetch).Success?
    ensures Process(url, fetch).value.output == Dict(map["title" := Str("No Title"), "content" := Str("No Content")])
  {
  }
}

=== FILE: long_term.dfy ===
/** Long-term memory: an append-only log of `{"message": ...}` records, kept
    either in a local file with one JSON object per line or, when an Azure
    endpoint and key are both configured, sent to the remote service. */
module LongTerm {
  import opened Wrappers
  import opened PyValues
  import JsonString
  import Strings

  datatype Record = Record(message: string)

  /** A remote write of one record; it may raise. */
  type RemoteWrite = (string, string, Record) -> Outcome<Exception>

  /** Appending text to the storage file (`open(path, "a")` and `write`);
      it may raise, and a failed append leaves the file as it was. */
  type LocalAppend = string -> Outcome<Exception>

  /** What the storage path holds when the memory is created: nothing, a
      file that cannot be read as text (a directory, no permission, bytes
      that are not valid text), or readable text. */
  datatype StoredFile = Missing | Unreadable(error: Exception) | Text(contents: string)

  /** The memory: the configured endpoint and key (`None` when the
      environment variable is unset), the records loaded or appended, and the
      storage file's contents (`None` while the file does not exist). */
  datatype Store = Store(endpoint: Option<string>, key: Option<string>, records: seq<Record>, file: Option<string>)

  /** Records go to the remote service exactly when endpoint and key are both
      truthy. */
  predicate IsRemote(s: Store) {
    Truthy(s.endpoint) && Truthy(s.key)
  }

  function Contents(file: Option<string>): string {
    file.GetOr("")
  }

  /** The text `json.dumps({"message": m})` produces, with its default
      separators. */
  function EncodeRecord(r: Record): string {
    "{\"message\": " + JsonString.Encode(r.message) + "}"
  }

  /** The line written for a record: its encoding and a newline. */
  function RecordLine(r: Record): string {
    EncodeRecord(r) + "\n"
  }

  const RecordPrefix: string := "{\"message\": "

  predicate IsJsonWhitespace(c: char) {
    c == ' ' || c == '\t' || c == '\n' || c == '\r'
  }

  /** `json.loads(line)` for a line holding one record object; other JSON
      shapes are reported as decode errors. */
  function DecodeRecord(line: string): (r: Result<Record, Exception>)
    ensures r.Failure? ==> r.error.JsonDecodeError?
    ensures r.Success? ==> |line| > |RecordPrefix| && line[..|RecordPrefix|] == RecordPrefix && line[|RecordPrefix|] == '"'
  {
    var p := |RecordPrefix|;
    if |line| <= p || line[..p] != RecordPrefix || line[p] != '"' then
      Failure(JsonDecodeError("Expecting a {\"message\": ...} object"))
    else match JsonString.DecodeBody(line[p + 1..])
      case Failure(msg) => Failure(JsonDecodeError(msg))
      case Success((m, rest)) =>
        if |rest| > 0 && rest[0] == '}' && forall i :: 1 <= i < |rest| ==> IsJsonWhitespace(rest[i]) then
          Success(Record(m))
        else Failure(JsonDecodeError("Extra data"))
  }

  /** The length of the first line of `s`, its newline included. */
  function LineLength(s: string): (n: nat)
    ensures n <= |s|
    ensures |s| > 0 ==> n > 0
    ensures forall i :: 0 <= i < n - 1 ==> s[i] != '\n'
    ensures n < |s| ==> s[n - 1] == '\n'
  {
    if |s| == 0 then 0
    else if s[0] == '\n' then 1
    else 1 + LineLength(s[1..])
  }

  /** Splits a file into lines the way iterating over it does: each line
      keeps its newline, the last one may lack it. */
  function Lines(contents: string): (r: seq<string>)
    ensures forall k :: 0 <= k < |r| ==> |r[k]| > 0
    decreases |contents|
  {
    if |contents| == 0 then []
    else
      var n := LineLength(contents);
      [contents[..n]] + Lines(contents[n..])
  }

  /** A line as iteration yields it: no newline before its last character. */
  predicate NoInnerNewline(line: string) {
    forall i :: 0 <= i < |line| - 1 ==> line[i] != '\n'
  }

  predicate EndsInNewline(line: string) {
    |line| > 0 && line[|line| - 1] == '\n'
  }

  /** Every line ends in a newline except possibly the last, and no line
      holds a newline anywhere else. */
  lemma {:induction false} LinesShape(contents: string)
    ensures forall k :: 0 <= k < |Lines(contents)| ==> NoInnerNewline(Lines(contents)[k])
    ensures forall k :: 0 <= k < |Lines(contents)| - 1 ==> EndsInNewline(Lines(contents)[k])
    decreases |contents|
  {
    if |contents| > 0 {
      var n := LineLength(contents);
      var tail := Lines(contents[n..]);
      LinesShape(contents[n..]);
      assert Lines(contents) == [contents[..n]] + tail;
      assert NoInnerNewline(contents[..n]);
      if n < |contents| {
        assert EndsInNewline(contents[..n]);
      }
    }
  }

  /** The first line followed by the rest is the whole text. */
  lemma LinesStep(contents: string)
    requires |contents| > 0
    ensures var n := LineLength(contents);
            Strings.Concat(Lines(contents)) == contents[..n] + Strings.Concat(Lines(contents[n..]))
  {
    var n := LineLength(contents);
    assert Lines(contents)[0] == contents[..n];
    assert Lines(contents)[1..] == Lines(contents[n..]);
  }

  /** Splitting into lines loses nothing: the lines, newlines included,
      concatenate back to the file's contents. */
  lemma {:induction false} LinesConcat(contents: string)
    ensures Strings.Concat(Lines(contents)) == contents
    decreases |contents|
  {
    if |contents| > 0 {
      var n := LineLength(contents);
      LinesConcat(contents[n..]);
      LinesStep(contents);
      assert contents == contents[..n] + contents[n..];
    }
  }

  /** Parses each line as a record; the first bad line raises. */
  function DecodeAll(lines: seq<string>): (r: Result<seq<Record>, Exception>)
    ensures r.Success? ==> |r.value| == |lines|
    ensures r.Success? ==> forall i :: 0 <= i < |lines| ==> DecodeRecord(lines[i]) == Success(r.value[i])
    ensures r.Failure? <==> exists i :: 0 <= i < |lines| && DecodeRecord(lines[i]).Failure?
    ensures r.Failure? ==> r.error.JsonDecodeError?
  {
    if |lines| == 0 then Success([])
    else match DecodeRecord(lines[0])
      case Failure(e) => Failure(e)
      case Success(rec) =>
        match DecodeAll(lines[1..])
        case Failure(e) => Failure(e)
        case Success(recs) => Success([rec] + recs)
  }

  /** `for line in f: records.append(json.loads(line))`. */
  function Load(contents: string): (r: Result<seq<Record>, Exception>)
    ensures contents == "" ==> r == Success([])
    ensures r.Success? ==> |r.value| == |Lines(contents)|
    ensures r.Success? ==> forall i :: 0 <= i < |r.value| ==> DecodeRecord(Lines(contents)[i]) == Success(r.value[i])
    ensures r.Failure? <==> exists i :: 0 <= i < |Lines(contents)| && DecodeRecord(Lines(contents)[i]).Failure?
    ensures r.Failure? ==> r.error.JsonDecodeError?
  {
    var lines := Lines(contents);
    var decoded := DecodeAll(lines);
    assert decoded.Failure? <==> exists i :: 0 <= i < |lines| && DecodeRecord(lines[i]).Failure?;
    decoded
  }

  /** `LongTermMemory(storage_path)`: reads every record of the storage file
      when it exists; a file that cannot be read raises. */
  function Open(stored: StoredFile, endpoint: Option<string>, key: Option<string>): (r: Result<Store, Exception>)
    ensures stored.Missing? ==> r == Success(Store(endpoint, key, [], None))
    ensures stored.Unreadable? ==> r == Failure(stored.error)
    ensures stored.Text? ==> (r.Success? <==> Load(stored.contents).Success?)
    ensures stored.Text? && r.Success? ==> r.value.records == Load(stored.contents).value && r.value.file == Some(stored.contents)
    ensures stored.Text? && r.Failure? ==> r.error == Load(stored.contents).error
    ensures r.Success? ==> r.value.endpoint == endpoint && r.value.key == key
  {
    match stored
    case Missing => Success(Store(endpoint, key, [], None))
    case Unreadable(e) => Failure(e)
    case Text(contents) =>
      match Load(contents)
      case Failure(e) => Failure(e)
      case Success(recs) => Success(Store(endpoint, key, recs, Some(contents)))
  }

  /** What a store's file looks like to the next `LongTermMemory`. */
  function StoredAs(file: Option<string>): StoredFile {
    if file.None? then Missing else Text(file.value)
  }

  /** The memory after `add`, together with how the call ended. */
  datatype Added = Added(store: Store, outcome: Outcome<Exception>)

  /** `add`: in remote mode the record is written remotely and the local
      state is left alone; otherwise it is appended to the records first and
      its line to the file afterwards (creating the file if needed), so a
      failing append leaves the record in memory but not in the file. */
  function Add(s: Store, message: string, write: RemoteWrite, append: LocalAppend): (r: Added)
    ensures IsRemote(s) ==> r.store == s && r.outcome == write(s.endpoint.value, s.key.value, Record(message))
    ensures !IsRemote(s) ==>
              && r.store.records == s.records + [Record(message)]
              && r.store.endpoint == s.endpoint && r.store.key == s.key
              && r.outcome == append(RecordLine(Record(message)))
    ensures !IsRemote(s) && r.outcome.Pass? ==> r.store.file == Some(Contents(s.file) + RecordLine(Record(message)))
    ensures !IsRemote(s) && r.outcome.Fail? ==> r.store.file == s.file
  {
    var rec := Record(message);
    if IsRemote(s) then
      Added(s, write(s.endpoint.value, s.key.value, rec))
    else
      var appended := s.(records := s.records + [rec]);
      match append(RecordLine(rec))
      case Pass => Added(appended.(file := Some(Contents(s.file) + RecordLine(rec))), Pass)
      case Fail(e) => Added(appended, Fail(e))
  }

  /** `get_all`: the messages, in record order. */
  function GetAll(s: Store): (r: seq<string>)
    ensures |r| == |s.records|
    ensures forall i :: 0 <= i < |r| ==> r[i] == s.records[i].message
  {
    seq(|s.records|, i requires 0 <= i < |s.records| => s.records[i].message)
  }

  /** The file is empty or ends with a newline. */
  predicate Terminated(contents: string) {
    |contents| == 0 || contents[|contents| - 1] == '\n'
  }

  /** The records in memory are exactly what reading the file gives back,
      and the next appended line starts a line of its own. */
  predicate Consistent(s: Store) {
    Terminated(Contents(s.file)) && Load(Contents(s.file)) == Success(s.records)
  }

  /** A record's encoding has no newline of its own. */
  lemma EncodeRecordHasNoNewline(r: Record)
    ensures forall i :: 0 <= i < |EncodeRecord(r)| ==> EncodeRecord(r)[i] != '\n'
  {
    JsonString.EncodePrintable(r.message);
    var e := EncodeRecord(r);
    var enc := JsonString.Encode(r.message);
    assert e == RecordPrefix + enc + "}";
    forall i | 0 <= i < |e|
      ensures e[i] != '\n'
    {
      if |RecordPrefix| <= i < |RecordPrefix| + |enc| {
        assert e[i] == enc[i - |RecordPrefix|];
      }
    }
  }

  /** `json.loads` of a written line gives back the record. */
  lemma DecodeRecordLine(r: Record)
    ensures DecodeRecord(RecordLine(r)) == Success(r)
  {
    var line := RecordLine(r);
    var p := |RecordPrefix|;
    var enc := JsonString.Encode(r.message);
    assert line == RecordPrefix + (enc + "}\n");
    assert line[..p] == RecordPrefix;
    assert line[p..] == enc + "}\n";
    JsonString.RoundTrip(r.message, "}\n");
    assert line[p + 1..] == (enc + "}\n")[1..];
  }

  /** The first line of a line followed by more text is that line. */
  lemma {:induction false} LineLengthOfLine(x: string, rest: string)
    requires forall i :: 0 <= i < |x| ==> x[i] != '\n'
    ensures LineLength(x + "\n" + rest) == |x| + 1
    decreases |x|
  {
    if |x| > 0 {
      assert (x + "\n" + rest)[1..] == x[1..] + "\n" + rest;
      LineLengthOfLine(x[1..], rest);
    }
  }

  /** Appending to a terminated file does not change where its first line
      ends. */
  lemma {:induction false} LineLengthAppend(a: string, b: string)
    requires |a| > 0 && Terminated(a)
    ensures LineLength(a + b) == LineLength(a)
    decreases |a|
  {
    if a[0] != '\n' {
      assert (a + b)[1..] == a[1..] + b;
      LineLengthAppend(a[1..], b);
    }
  }

  /** A newline-free text and its newline make one line. */
  lemma LinesOfLine(x: string)
    requires forall i :: 0 <= i < |x| ==> x[i] != '\n'
    ensures Lines(x + "\n") == [x + "\n"]
  {
    var line := x + "\n";
    assert line == x + "\n" + "";
    LineLengthOfLine(x, "");
    assert line[..|line|] == line;
    assert line[|line|..] == "";
  }

  /** Appending a newline-free line and its newline to a terminated file
      appends exactly that line to the file's lines. */
  lemma {:induction false} LinesAppend(a: string, x: string)
    requires Terminated(a)
    requires forall i :: 0 <= i < |x| ==> x[i] != '\n'
    ensures Lines(a + (x + "\n")) == Lines(a) + [x + "\n"]
    decreases |a|
  {
    var line := x + "\n";
    if |a| == 0 {
      assert a + line == line;
      LinesOfLine(x);
    } else {
      var n := LineLength(a);
      var tail := a[n..];
      TerminatedTail(a, n);
      LineLengthAppend(a, line);
      PrefixOfAppend(a, line, n);
      LinesAppend(tail, x);
      assert [a[..n]] + (Lines(tail) + [line]) == ([a[..n]] + Lines(tail)) + [line];
    }
  }

  lemma TerminatedTail(a: string, n: nat)
    requires Terminated(a) && n <= |a|
    ensures Terminated(a[n..])
  {
    if n < |a| {
      assert a[n..][|a| - n - 1] == a[|a| - 1];
    }
  }

  lemma PrefixOfAppend(a: string, b: string, n: nat)
    requires n <= |a|
    ensures (a + b)[..n] == a[..n] && (a + b)[n..] == a[n..] + b
  {
  }

  /** Decoding one more line appends its record, or raises. */
  lemma {:induction false} DecodeAllSnoc(lines: seq<string>, line: string)
    requires DecodeAll(lines).Success? && DecodeRecord(line).Success?
    ensures DecodeAll(lines + [line]) == Success(DecodeAll(lines).value + [DecodeRecord(line).value])
    decreases |lines|
  {
    if |lines| == 0 {
      assert lines + [line] == [line];
      assert [line][1..] == [];
      assert DecodeAll([line]) == Success([DecodeRecord(line).value] + []);
      assert [DecodeRecord(line).value] + [] == DecodeAll(lines).value + [DecodeRecord(line).value];
    } else {
      assert (lines + [line])[0] == lines[0];
      assert (lines + [line])[1..] == lines[1..] + [line];
      DecodeAllSnoc(lines[1..], line);
      var rec := DecodeRecord(lines[0]).value;
      assert DecodeAll(lines).value == [rec] + DecodeAll(lines[1..]).value;
      assert [rec] + (DecodeAll(lines[1..]).value + [DecodeRecord(line).value])
             == DecodeAll(lines).value + [DecodeRecord(line).value];
    }
  }

  /** Appending one written line to a terminated file appends one record to
      what the file reads back as. */
  lemma LoadAppend(a: string, r: Record)
    requires Terminated(a) && Load(a).Success?
    ensures Load(a + RecordLine(r)) == Success(Load(a).value + [r])
  {
    EncodeRecordHasNoNewline(r);
    LinesAppend(a, EncodeRecord(r));
    DecodeRecordLine(r);
    DecodeAllSnoc(Lines(a), RecordLine(r));
  }

  /** A store opened from no file, or from a terminated file that reads
      back, starts consistent. */
  lemma OpenConsistent(stored: StoredFile, endpoint: Option<string>, key: Option<string>)
    requires stored.Text? ==> Terminated(stored.contents)
    requires Open(stored, endpoint, key).Success?
    ensures Consistent(Open(stored, endpoint, key).value)
  {
  }

  /** Local and remote `add` both keep the file and the records in step
      when they end without raising. */
  lemma AddPreservesConsistent(s: Store, message: string, write: RemoteWrite, append: LocalAppend)
    requires Consistent(s)
    requires Add(s, message, write, append).outcome.Pass?
    ensures Consistent(Add(s, message, write, append).store)
  {
    if !IsRemote(s) {
      LoadAppend(Contents(s.file), Record(message));
    }
  }

  /** A local `add` whose file append raises leaves the new record in
      memory only: the store no longer agrees with its file, and reopening
      the file gives the messages from before the call. */
  lemma FailedAppendLosesRecord(s: Store, message: string, write: RemoteWrite, append: LocalAppend)
    requires Consistent(s) && !IsRemote(s)
    requires append(RecordLine(Record(message))).Fail?
    ensures var after := Add(s, message, write, append).store;
            && GetAll(after) == GetAll(s) + [message]
            && !Consistent(after)
            && Open(StoredAs(after.file), after.endpoint, after.key) == Success(s)
  {
    var after := Add(s, message, write, append).store;
    AddAppendsMessage(s, message, write, append);
    assert |after.records| != |s.records|;
  }

  /** Round trip: reopening the storage file of a consistent store reads back
      the same messages. */
  lemma ReopenRecoversMessages(s: Store)
    requires Consistent(s)
    ensures Open(StoredAs(s.file), s.endpoint, s.key).Success?
    ensures GetAll(Open(StoredAs(s.file), s.endpoint, s.key).value) == GetAll(s)
  {
  }

  /** Calling `add` for each message in turn in local mode, whether or not
      an append raises. */
  function AddAllLocal(s: Store, messages: seq<string>, write: RemoteWrite, append: LocalAppend): (r: Store)
    requires !IsRemote(s)
    ensures !IsRemote(r)
    decreases |messages|
  {
    if |messages| == 0 then s
    else AddAllLocal(Add(s, messages[0], write, append).store, messages[1..], write, append)
  }

  /** After K local adds the store holds the earlier messages followed by
      the K new ones, so its size grew by exactly K. */
  lemma {:induction false} AddAllLocalAppends(s: Store, messages: seq<string>, write: RemoteWrite, append: LocalAppend)
    requires !IsRemote(s)
    ensures GetAll(AddAllLocal(s, messages, write, append)) == GetAll(s) + messages
    decreases |messages|
  {
    if |messages| == 0 {
      assert GetAll(s) + messages == GetAll(s);
    } else {
      var s' := Add(s, messages[0], write, append).store;
      var rest := messages[1..];
      assert AddAllLocal(s, messages, write, append) == AddAllLocal(s', rest, write, append);
      AddAllLocalAppends(s', rest, write, append);
      AddAppendsMessage(s, messages[0], write, append);
      AppendFirst(GetAll(s), messages);
    }
  }

  lemma AppendFirst(g: seq<string>, messages: seq<string>)
    requires |messages| > 0
    ensures g + messages == (g + [messages[0]]) + messages[1..]
  {
    assert messages == [messages[0]] + messages[1..];
  }

  /** One local add appends its message to `get_all()`. */
  lemma AddAppendsMessage(s: Store, message: string, write: RemoteWrite, append: LocalAppend)
    requires !IsRemote(s)
    ensures GetAll(Add(s, message, write, append).store) == GetAll(s) + [message]
  {
    var s' := Add(s, message, write, append).store;
    assert s'.records == s.records + [Record(message)];
    assert |GetAll(s')| == |GetAll(s) + [message]|;
    forall i | 0 <= i < |GetAll(s')|
      ensures GetAll(s')[i] == (GetAll(s) + [message])[i]
    {
      if i < |s.records| {
        assert s'.records[i] == s.records[i];
      }
    }
  }
}

=== FILE: models.dfy ===
/** The model registry (task name to model or deployment name, with
    defaults for unset environment variables) and the loader that turns a
    registered name into a remote caller or a local pipeline. */
module Models {
  import opened Wrappers
  import opened PyValues

  /** The environment variables visible to the process. */
  type Env = map<string, string>

  /** `os.environ.get(name, default)`: a set variable wins, even when it is
      empty. */
  function EnvGet(env: Env, name: string, default: string): string {
    if name in env then env[name] else default
  }

  const ClassifyDefault: string := "facebook/bart-large-mnli"
  const SummarizeDefault: string := "sshleifer/distilbart-cnn-12-6"
  const CaptionDefault: string := "Salesforce/blip-image-captioning-base"

  /** `MODEL_REGISTRY`, read from the environment. */
  function Registry(env: Env): (r: map<string, string>)
    ensures r.Keys == {"classification", "summarization", "image_caption"}
    ensures r["classification"] == (if "AZURE_CLASSIFY_DEPLOYMENT" in env then env["AZURE_CLASSIFY_DEPLOYMENT"] else ClassifyDefault)
    ensures r["summarization"] == (if "AZURE_SUMMARIZE_DEPLOYMENT" in env then env["AZURE_SUMMARIZE_DEPLOYMENT"] else SummarizeDefault)
    ensures r["image_caption"] == (if "AZURE_IMAGE_DEPLOYMENT" in env then env["AZURE_IMAGE_DEPLOYMENT"] else CaptionDefault)
  {
    map[
      "classification" := EnvGet(env, "AZURE_CLASSIFY_DEPLOYMENT", ClassifyDefault),
      "summarization" := EnvGet(env, "AZURE_SUMMARIZE_DEPLOYMENT", SummarizeDefault),
      "image_caption" := EnvGet(env, "AZURE_IMAGE_DEPLOYMENT", CaptionDefault)
    ]
  }

  /** `get_model_info`: the registered name of a task, `ValueError` for
      any other task. */
  function GetModelInfo(env: Env, task: string): (r: Result<string, Exception>)
    ensures task in Registry(env) ==> r == Success(Registry(env)[task])
    ensures task !in Registry(env) ==> r == Failure(ValueError("No model registered for task: " + task))
  {
    var registry := Registry(env);
    if task !in registry then Failure(ValueError("No model registered for task: " + task))
    else Success(registry[task])
  }

  /** The callable `load_model` returns. */
  datatype Loaded =
    | RemoteCaller(endpoint: string, apiKey: Option<string>)
    | LocalPipeline(task: string, model: string)

  predicate StartsWith(s: string, prefix: string) {
    |prefix| <= |s| && s[..|prefix|] == prefix
  }

  const MissingTransformersMessage: string := "transformers is required for local model loading"

  /** transformers' `pipeline(task, model=name)`: builds a local pipeline,
      or raises (an unknown task name, a model that cannot be fetched). */
  type PipelineFactory = (string, string) -> Outcome<Exception>

  /** `load_model(task)`: a registered name starting with "http" is called
      remotely with the configured API key; otherwise a local pipeline is
      built by `pipeline`, which is `None` when transformers failed to
      import. */
  function LoadModel(env: Env, task: string, pipeline: Option<PipelineFactory>): (r: Result<Loaded, Exception>)
    ensures GetModelInfo(env, task).Failure? ==> r == Failure(GetModelInfo(env, task).error)
    ensures GetModelInfo(env, task).Success? ==>
              var name := GetModelInfo(env, task).value;
              && (StartsWith(name, "http") ==>
                    r == Success(RemoteCaller(name, if "AZURE_OPENAI_API_KEY" in env then Some(env["AZURE_OPENAI_API_KEY"]) else None)))
              && (!StartsWith(name, "http") && pipeline.None? ==> r == Failure(RuntimeError(MissingTransformersMessage)))
              && (!StartsWith(name, "http") && pipeline.Some? ==>
                    r == (match pipeline.value(task, name)
                          case Pass => Success(LocalPipeline(task, name))
                          case Fail(e) => Failure(e)))
  {
    match GetModelInfo(env, task)
    case Failure(e) => Failure(e)
    case Success(name) =>
      if StartsWith(name, "http") then
        Success(RemoteCaller(name, if "AZURE_OPENAI_API_KEY" in env then Some(env["AZURE_OPENAI_API_KEY"]) else None))
      else if pipeline.None? then Failure(RuntimeError(MissingTransformersMessage))
      else
        match pipeline.value(task, name)
        case Pass => Success(LocalPipeline(task, name))
        case Fail(e) => Failure(e)
  }

  /** With no deployment variables set, every task goes to the local branch
      with its default model: without transformers it raises `RuntimeError`,
      and with it the outcome is whatever `pipeline` does for that task and
      model, its exception included. */
  lemma DefaultsLoadLocally(env: Env, task: string, build: PipelineFactory)
    requires "AZURE_CLASSIFY_DEPLOYMENT" !in env && "AZURE_SUMMARIZE_DEPLOYMENT" !in env && "AZURE_IMAGE_DEPLOYMENT" !in env
    requires task in {"classification", "summarization", "image_caption"}
    ensures var name := Registry(env)[task];
            && name == DefaultModel(task)
            && LoadModel(env, task, Some(build))
               == (match build(task, name)
                   case Pass => Success(LocalPipeline(task, name))
                   case Fail(e) => Failure(e))
    ensures LoadModel(env, task, None) == Failure(RuntimeError(MissingTransformersMessage))
  {
    assert !StartsWith(ClassifyDefault, "http") by { assert ClassifyDefault[0] != 'h'; }
    assert !StartsWith(SummarizeDefault, "http") by { assert SummarizeDefault[0] != 'h'; }
    assert !StartsWith(CaptionDefault, "http") by { assert CaptionDefault[0] != 'h'; }
  }

  /** The local model a registered task falls back to. */
  function DefaultModel(task: string): string
    requires task in {"classification", "summarization", "image_caption"}
  {
    if task == "classification" then ClassifyDefault
    else if task == "summarization" then SummarizeDefault
    else CaptionDefault
  }

  /** A `pipeline` that does not know the task name "classification" makes
      loading the default classifier raise its error. */
  lemma RejectedTaskFailsToLoad(env: Env, build: PipelineFactory, e: Exception)
    requires "AZURE_CLASSIFY_DEPLOYMENT" !in env
    requires build("classification", ClassifyDefault) == Fail(e)
    ensures LoadModel(env, "classification", Some(build)) == Failure(e)
  {
    assert !StartsWith(ClassifyDefault, "http") by { assert ClassifyDefault[0] != 'h'; }
  }

  /** An "https" deployment URL is remote whether or not an API key is
      set, and then no local check is made. */
  lemma HttpsIsRemote(env: Env, pipeline: Option<PipelineFactory>, url: string)
    requires "AZURE_SUMMARIZE_DEPLOYMENT" in env && env["AZURE_SUMMARIZE_DEPLOYMENT"] == "https://" + url
    ensures LoadModel(env, "summarization", pipeline).Success?
    ensures LoadModel(env, "summarization", pipeline).value.RemoteCaller?
    ensures "AZURE_OPENAI_API_KEY" !in env ==> LoadModel(env, "summarization", pipeline).value.apiKey.None?
  {
    assert StartsWith("https://" + url, "http");
  }

  /** An unregistered task fails with the registry's error before the
      transformers check. */
  lemma UnknownTaskFailsFirst(env: Env, task: string, pipeline: Option<PipelineFactory>)
    requires task !in {"classification", "summarization", "image_caption"}
    ensures LoadModel(env, task, pipeline)
            == Failure(ValueError("No model registered for task: " + task))
  {
  }

  /** The same, with the message written out as `shown`. */
  lemma UnknownTaskShown(env: Env, task: string, pipeline: Option<PipelineFactory>, shown: string)
    requires task !in {"classification", "summarization", "image_caption"}
    requires "No model registered for task: " + task == shown
    ensures LoadModel(env, task, pipeline) == Failure(ValueError(shown))
  {
    UnknownTaskFailsFirst(env, task, pipeline);
  }

  /** The task "translation" is one such task. */
  lemma TranslationIsUnregistered(env: Env, pipeline: Option<PipelineFactory>)
    ensures LoadModel(env, "translation", pipeline)
            == Failure(ValueError("No model registered for task: translation"))
  {
    UnknownTaskShown(env, "translation", pipeline, "No model registered for task: translation");
  }
}

=== FILE: pdf_processor.dfy ===
/** `PDFProcessor.extract_text`: the text of a PDF, pages without text
    skipped. */
module PdfProcessor {
  import opened Wrappers
  import opened PyValues
  import Strings
  import FileAgent

  /** A page contributes when its text is neither `None` nor empty. */
  predicate HasText(page: Option<string>) {
    page.Some? && |page.value| > 0
  }

  /** The texts of the pages that have one, in page order. */
  function PageTexts(pages: seq<Option<string>>): (r: seq<string>)
    ensures forall i :: 0 <= i < |r| ==> |r[i]| > 0
  {
    if |pages| == 0 then []
    else if HasText(pages[0]) then [pages[0].value] + PageTexts(pages[1..])
    else PageTexts(pages[1..])
  }

  /** The loop `if page_text: text += page_text`, continued from the text
      accumulated so far. */
  function Accumulate(text: string, pages: seq<Option<string>>): string
    decreases |pages|
  {
    if |pages| == 0 then text
    else if HasText(pages[0]) then Accumulate(text + pages[0].value, pages[1..])
    else Accumulate(text, pages[1..])
  }

  lemma {:induction false} AccumulateIsConcat(text: string, pages: seq<Option<string>>)
    ensures Accumulate(text, pages) == text + Strings.Concat(PageTexts(pages))
    decreases |pages|
  {
    if |pages| > 0 {
      AccumulateIsConcat(if HasText(pages[0]) then text + pages[0].value else text, pages[1..]);
    }
  }

  /** The loop over the pages of an opened document: never fails; the result
      is the non-empty page texts in order, so it is as long as they are
      together and empty for a document without pages. */
  function PagesText(pages: seq<Option<string>>): (r: string)
    ensures r == Strings.Concat(PageTexts(pages))
    ensures |r| == Strings.TotalLength(PageTexts(pages))
    ensures |pages| == 0 ==> r == ""
  {
    AccumulateIsConcat("", pages);
    Strings.ConcatLength(PageTexts(pages));
    Accumulate("", pages)
  }

  /** `extract_text(file_path)`: opening the file or reading it as a PDF may
      raise, and the exception propagates; otherwise the text of its pages. */
  function ExtractText(path: string, pdf: FileAgent.PdfPages): (r: Result<string, Exception>)
    ensures r.Success? <==> pdf(path).Success?
    ensures pdf(path).Failure? ==> r == Failure(pdf(path).error)
    ensures r.Success? ==> r.value == Strings.Concat(PageTexts(pdf(path).value))
  {
    match pdf(path)
    case Failure(e) => Failure(e)
    case Success(pages) => Success(PagesText(pages))
  }

  /** Skipping empty pages changes nothing when every page has text (empty
      strings add nothing), so the processor and the file agent agree on such
      a document. */
  lemma AgreesWithFileAgent(path: string, pdf: FileAgent.PdfPages)
    requires pdf(path).Success? && FileAgent.AllExtracted(pdf(path).value)
    ensures FileAgent.PdfText(pdf(path).value) == ExtractText(path, pdf)
  {
    SkippingEmptyPagesIsHarmless(pdf(path).value);
  }

  lemma {:induction false} SkippingEmptyPagesIsHarmless(pages: seq<Option<string>>)
    requires FileAgent.AllExtracted(pages)
    ensures Strings.Concat(FileAgent.Texts(pages)) == Strings.Concat(PageTexts(pages))
    decreases |pages|
  {
    if |pages| > 0 {
      SkippingEmptyPagesIsHarmless(pages[1..]);
      var texts := FileAgent.Texts(pages);
      assert texts[1..] == FileAgent.Texts(pages[1..]);
      assert Strings.Concat(texts) == pages[0].value + Strings.Concat(texts[1..]);
    }
  }
}

=== FILE: py_values.dfy ===
/** The Python values and exceptions that cross the boundaries of the
    modelled components. */
module PyValues {
  import opened Wrappers
  import JsonString

  /** A JSON-compatible Python value; `Null` is Python's `None`. */
  datatype Value =
    | Null
    | Bool(b: bool)
    | Int(i: int)
    | Str(s: string)
    | List(items: seq<Value>)
    | Dict(fields: map<string, Value>)

  /** The exceptions the modelled code raises itself, plus `Raised` for an
      exception coming out of a foreign call (a model, a parser, the network),
      which is known only by its message. */
  datatype Exception =
    | KeyError(key: string)
    | IndexError(msg: string)
    | ValueError(msg: string)
    | TypeError(msg: string)
    | RuntimeError(msg: string)
    | JsonDecodeError(msg: string)
    | Raised(msg: string)

  /** `str(e)`: a `KeyError` shows `repr` of its key, every other exception
      shows its message. */
  function Message(e: Exception): (r: string)
    ensures e.KeyError? ==> r == Repr(e.key)
    ensures !e.KeyError? ==> r == e.msg
  {
    match e
    case KeyError(k) => Repr(k)
    case IndexError(m) => m
    case ValueError(m) => m
    case TypeError(m) => m
    case RuntimeError(m) => m
    case JsonDecodeError(m) => m
    case Raised(m) => m
  }

  /** The quote `repr` puts around a string: a double quote when the string
      holds a single quote and no double quote, a single quote otherwise. */
  function ReprQuote(s: string): char {
    if '\'' in s && '"' !in s then '"' else '\''
  }

  /** Characters of Latin-1 that `repr` writes as `\xNN`: the C0 controls
      other than tab, newline and carriage return, DEL, the C1 controls, the
      no-break space and the soft hyphen. */
  predicate IsHexEscaped(c: char) {
    (c as int < 0x20 && c != '\t' && c != '\n' && c != '\r')
    || (0x7f <= c as int <= 0xa0) || c as int == 0xad
  }

  /** A character `repr` writes unchanged: neither the backslash, nor the
      enclosing quote, nor one it escapes. */
  predicate IsReprPlain(c: char, q: char) {
    c != q && c != '\\' && c != '\t' && c != '\n' && c != '\r' && !IsHexEscaped(c)
  }

  /** One character as `repr` writes it between quotes `q`. */
  function ReprChar(c: char, q: char): (r: string)
    ensures IsReprPlain(c, q) <==> r == [c]
    ensures |r| > 0
  {
    if c == q || c == '\\' then ['\\', c]
    else if c == '\t' then "\\t"
    else if c == '\n' then "\\n"
    else if c == '\r' then "\\r"
    else if IsHexEscaped(c) then ['\\', 'x', JsonString.HexDigit(c as int / 16), JsonString.HexDigit(c as int % 16)]
    else [c]
  }

  /** The characters of `s` as `repr` writes them between quotes `q`. */
  function ReprBody(s: string, q: char): (r: string)
    ensures |r| >= |s|
  {
    if |s| == 0 then "" else ReprChar(s[0], q) + ReprBody(s[1..], q)
  }

  /** `repr(s)` of a string. */
  function Repr(s: string): (r: string)
    ensures |r| >= |s| + 2
    ensures r[0] == ReprQuote(s) && r[|r| - 1] == ReprQuote(s)
  {
    [ReprQuote(s)] + ReprBody(s, ReprQuote(s)) + [ReprQuote(s)]
  }

  /** When every character is plain, the body is the string itself. */
  lemma {:induction false} PlainReprBody(s: string, q: char)
    requires forall i :: 0 <= i < |s| ==> IsReprPlain(s[i], q)
    ensures ReprBody(s, q) == s
    decreases |s|
  {
    if |s| > 0 {
      PlainReprBody(s[1..], q);
      assert s == [s[0]] + s[1..];
    }
  }

  /** A string without quotes of either kind, backslashes or escaped control
      characters is shown between single quotes as it is. */
  lemma PlainRepr(s: string)
    requires forall i :: 0 <= i < |s| ==> s[i] != '"' && IsReprPlain(s[i], '\'')
    ensures Repr(s) == "'" + s + "'"
  {
    assert ReprQuote(s) == '\'';
    PlainReprBody(s, '\'');
  }

  /** In particular a word of lower-case ASCII letters, such as a key of
      the router's requests, is shown between single quotes as it is. */
  lemma LowerWordRepr(s: string)
    requires forall i :: 0 <= i < |s| ==> 'a' <= s[i] <= 'z'
    ensures Repr(s) == "'" + s + "'"
  {
    PlainRepr(s);
  }

  /** `str(KeyError(k))` for such a word, written out as `shown`. */
  lemma WordKeyMessage(k: string, shown: string)
    requires forall i :: 0 <= i < |k| ==> 'a' <= k[i] <= 'z'
    requires ['\''] + k + ['\''] == shown
    ensures Message(KeyError(k)) == shown
  {
    LowerWordRepr(k);
  }

  /** A string holding a single quote but no double quote is shown between
      double quotes, its single quote unescaped: `repr("it's")` is `"it's"`. */
  lemma ReprOfApostrophe()
    ensures Repr("it's") == "\"it's\""
  {
    assert ReprQuote("it's") == '"';
    PlainReprBody("it's", '"');
  }

  /** A string holding both kinds of quote is shown between single quotes,
      the single quote escaped: `repr("a'\"")` is `'a\'"'`. */
  lemma ReprOfBothQuotes()
    ensures Repr("a'\"") == "'a\\'\"'"
  {
    var s := "a'\"";
    assert ReprQuote(s) == '\'';
    assert ReprBody(s, '\'') == "a" + ReprBody(s[1..], '\'');
    assert ReprBody(s[1..], '\'') == "\\'" + ReprBody(s[2..], '\'');
    assert ReprBody(s[2..], '\'') == "\"" + ReprBody(s[3..], '\'');
  }

  /** The decimal digits `str` writes for a natural number. */
  function Decimal(n: nat): (r: string)
    ensures |r| > 0
    ensures forall i :: 0 <= i < |r| ==> '0' <= r[i] <= '9'
    ensures r[0] == '0' ==> n == 0
    decreases n
  {
    if n < 10 then [('0' as int + n) as char]
    else Decimal(n / 10) + [('0' as int + n % 10) as char]
  }

  /** The number a string of decimal digits spells. */
  function DecimalValue(s: string): nat
    requires forall i :: 0 <= i < |s| ==> '0' <= s[i] <= '9'
  {
    if |s| == 0 then 0
    else DecimalValue(s[..|s| - 1]) * 10 + (s[|s| - 1] as int - '0' as int)
  }

  /** Reading back the digits of `n` gives `n`. */
  lemma {:induction false} DecimalRoundTrip(n: nat)
    ensures DecimalValue(Decimal(n)) == n
    decreases n
  {
    var r := Decimal(n);
    if n >= 10 {
      DecimalRoundTrip(n / 10);
      assert r[..|r| - 1] == Decimal(n / 10);
    }
  }

  /** `str(i)` of an integer: a minus sign exactly for a negative number. */
  function IntStr(i: int): (r: string)
    ensures |r| > 0 && (r[0] == '-' <==> i < 0)
  {
    if i < 0 then "-" + Decimal(-i) else Decimal(i)
  }

  /** `repr(v)`: strings quoted as `Repr` shows them, lists with their items'
      `repr` separated by ", ". A dict shows "{}" when empty and "{...}"
      otherwise: its entries' order is not kept by a map. */
  function PyRepr(v: Value): (r: string)
    ensures |r| > 0
    ensures v.Str? ==> r == Repr(v.s)
    ensures v.List? ==> r[0] == '[' && r[|r| - 1] == ']'
    decreases v, 1
  {
    match v
    case Null => "None"
    case Bool(b) => if b then "True" else "False"
    case Int(i) => IntStr(i)
    case Str(s) => Repr(s)
    case List(items) => "[" + ReprItems(items, v) + "]"
    case Dict(fields) => if |fields| == 0 then "{}" else "{...}"
  }

  /** The items of a list, each as `repr` shows it, separated by ", ". */
  function ReprItems(items: seq<Value>, parent: Value): (r: string)
    requires parent.List? && forall k :: 0 <= k < |items| ==> items[k] < parent
    ensures |items| == 0 <==> r == ""
    decreases parent, 0, |items|
  {
    if |items| == 0 then ""
    else if |items| == 1 then PyRepr(items[0])
    else PyRepr(items[0]) + ", " + ReprItems(items[1..], parent)
  }

  /** `str(v)`: a string is itself, everything else is its `repr`. */
  function PyStr(v: Value): (r: string)
    ensures v.Str? ==> r == v.s
    ensures !v.Str? ==> r == PyRepr(v)
  {
    if v.Str? then v.s else PyRepr(v)
  }

  /** Python truthiness of an optional string: set and non-empty. */
  predicate Truthy(s: Option<string>) {
    s.Some? && |s.value| > 0
  }

  /** The timestamp every expert agent writes into its result metadata. */
  const Timestamp: string := "2023-10-01T12:00:00Z"

  /** The result dictionary every expert agent returns:
      `{"type", "input", "output", "metadata"}`. */
  datatype AgentResult = AgentResult(kind: string, input: string, output: Value, metadata: map<string, string>) {

    /** The same result as the Python dictionary the agent returns. */
    function AsValue(): (v: Value)
      ensures v.Dict? && v.fields.Keys == {"type", "input", "output", "metadata"}
      ensures v.fields["output"] == output
    {
      Dict(map[
        "type" := Str(kind),
        "input" := Str(input),
        "output" := output,
        "metadata" := Dict(map k | k in metadata :: Str(metadata[k]))
      ])
    }
  }
}

=== FILE: router.dfy ===
/** The router agent: builds the routing state from a request, asks a
    zero-shot classifier for the input's category, runs the handler node for
    that category and wraps the first output in a response envelope.

    The workflow graph is modelled as the test suite's graph runs it: the
    entry node "router" yields a label, the node registered under that label
    runs on the same state, and its output is the one streamed item. */
module Router {
  import opened Wrappers
  import opened PyValues

  /** The routing state: the request content under "input", merged with the
      request's metadata entries. */
  type State = map<string, Value>

  /** The candidate labels, in the order they are given to the classifier. */
  const Labels: seq<string> := ["text", "image", "file", "link"]

  /** The name of the entry node of the workflow graph. */
  const RouterNode: string := "router"

  const NoAgentMessage: string := "No agent could process the input"

  /** A zero-shot classifier: given the input and the candidate labels it
      returns the labels ranked best first, or raises. */
  type Classifier = (Value, seq<string>) -> Result<seq<string>, Exception>

  /** What an expert agent node does with the whole routing state. */
  type Handler = State -> Result<Value, Exception>

  /** The expert agent registered for each label. */
  datatype Handlers = Handlers(text: Handler, image: Handler, file: Handler, link: Handler)

  /** The dictionary `process_input` returns, either
      `{status: "success", result, source: "agent"}` or
      `{status: "error", message}`. */
  datatype Response = Succeeded(result: Value) | Error(message: string) {

    /** The response as the Python dictionary the router returns. */
    function AsDict(): (d: map<string, Value>)
      ensures "status" in d && (d["status"] == Str("success") <==> Succeeded?)
      ensures Succeeded? ==>
                && d.Keys == {"status", "result", "source"}
                && d["result"] == result && d["source"] == Str("agent")
      ensures Error? ==>
                && d.Keys == {"status", "message"}
                && d["status"] == Str("error") && d["message"] == Str(message)
    {
      match this
      case Succeeded(v) => map["status" := Str("success"), "result" := v, "source" := Str("agent")]
      case Error(m) => map["status" := Str("error"), "message" := Str(m)]
    }
  }

  /** Builds the routing state: `{"input": content}` first, then
      `state.update(metadata)` when the request carries metadata. */
  function BuildState(request: map<string, Value>): (r: Result<State, Exception>)
    ensures "content" !in request ==> r == Failure(KeyError("content"))
    ensures r.Success? ==> "input" in r.value
    ensures r.Success? && "metadata" !in request ==> r.value == map["input" := request["content"]]
    ensures r.Success? && "metadata" in request ==>
              request["metadata"].Dict?
              && r.value.Keys == {"input"} + request["metadata"].fields.Keys
              && (forall k :: k in request["metadata"].fields ==> r.value[k] == request["metadata"].fields[k])
              && ("input" !in request["metadata"].fields ==> r.value["input"] == request["content"])
    ensures "content" in request && ("metadata" !in request || request["metadata"].Dict?) ==> r.Success?
  {
    if "content" !in request then Failure(KeyError("content"))
    else
      var base := map["input" := request["content"]];
      if "metadata" !in request then Success(base)
      else match request["metadata"]
        case Dict(extra) => Success(base + extra)
        case _ => Failure(TypeError("metadata is not a mapping"))
  }

  /** `_classify_input`: queries the classifier with the state's input and
      the fixed candidate labels and takes the top-ranked label. */
  function Classify(state: State, classifier: Classifier): (r: Result<string, Exception>)
    requires "input" in state
    ensures r.Success? <==> classifier(state["input"], Labels).Success? && |classifier(state["input"], Labels).value| > 0
    ensures r.Success? ==> r.value == classifier(state["input"], Labels).value[0]
    ensures classifier(state["input"], Labels).Failure? ==> r == Failure(classifier(state["input"], Labels).error)
  {
    match classifier(state["input"], Labels)
    case Failure(e) => Failure(e)
    case Success(ranked) =>
      if |ranked| == 0 then Failure(IndexError("list index out of range")) else Success(ranked[0])
  }

  /** Looks up and runs the graph node called `name` on the state. The nodes
      are the router itself and one node per label; any other name is a
      missing key of the graph's node table. */
  function RunNode(name: string, state: State, classifier: Classifier, handlers: Handlers): (r: Result<Value, Exception>)
    requires "input" in state
    ensures name !in Labels && name != RouterNode ==> r == Failure(KeyError(name))
    ensures name == RouterNode ==>
              r == (match Classify(state, classifier)
                    case Success(l) => Success(Str(l))
                    case Failure(e) => Failure(e))
    ensures name in Labels ==> r == HandlerFor(handlers, name)(state)
  {
    if name == RouterNode then
      match Classify(state, classifier)
      case Success(l) => Success(Str(l))
      case Failure(e) => Failure(e)
    else if name in Labels then HandlerFor(handlers, name)(state)
    else Failure(KeyError(name))
  }

  /** The handler registered for one of the four labels. */
  function HandlerFor(handlers: Handlers, category: string): Handler
    requires category in Labels
  {
    if category == "text" then handlers.text
    else if category == "image" then handlers.image
    else if category == "file" then handlers.file
    else handlers.link
  }

  /** The one item the workflow streams: the router node picks a label and
      the node of that name runs on the same state. */
  function Stream(state: State, classifier: Classifier, handlers: Handlers): (r: Result<Value, Exception>)
    requires "input" in state
    ensures Classify(state, classifier).Failure? ==> r == Failure(Classify(state, classifier).error)
    ensures Classify(state, classifier).Success? ==> r == RunNode(Classify(state, classifier).value, state, classifier, handlers)
    ensures var answer := classifier(state["input"], Labels);
            && (answer.Failure? ==> r == Failure(answer.error))
            && (answer.Success? && |answer.value| == 0 ==> r == Failure(IndexError("list index out of range")))
  {
    match RunNode(RouterNode, state, classifier, handlers)
    case Failure(e) => Failure(e)
    case Success(chosen) =>
      if chosen.Str? then RunNode(chosen.s, state, classifier, handlers)
      else Failure(TypeError("unhashable label"))
  }

  /** `process_input`: never raises; every exception becomes an error
      envelope carrying `str(e)`, a `None` output becomes the "no agent"
      error, and any other output is returned as the success result. */
  function ProcessInput(request: map<string, Value>, classifier: Classifier, handlers: Handlers): (r: Response)
    ensures "content" !in request ==> r == Error("'content'")
    ensures BuildState(request).Failure? ==> r == Error(Message(BuildState(request).error))
    ensures BuildState(request).Success? ==>
              var answer := classifier(BuildState(request).value["input"], Labels);
              && (answer.Failure? ==> r == Error(Message(answer.error)))
              && (answer.Success? && |answer.value| == 0 ==> r == Error("list index out of range"))
    ensures r.Succeeded? ==> r.result != Null
    ensures r.Succeeded? ==>
              && BuildState(request).Success?
              && Classify(BuildState(request).value, classifier).Success?
  {
    match BuildState(request)
    case Failure(e) => MissingContentIsQuoted(e); Error(Message(e))
    case Success(state) => Envelope(Stream(state, classifier, handlers))
  }

  /** The envelope for the streamed output. */
  function Envelope(out: Result<Value, Exception>): (r: Response)
    ensures out.Failure? ==> r == Error(Message(out.error))
    ensures out.Failure? && out.error.IndexError? ==> r == Error(out.error.msg)
    ensures out == Success(Null) ==> r == Error(NoAgentMessage)
    ensures out.Success? && out.value != Null ==> r == Succeeded(out.value)
  {
    match out
    case Failure(e) => Error(Message(e))
    case Success(output) =>
      if output == Null then Error(NoAgentMessage) else Succeeded(output)
  }

  lemma MissingContentIsQuoted(e: Exception)
    ensures e == KeyError("content") ==> Message(e) == "'content'"
  {
    if e == KeyError("content") {
      MissingContentMessage();
    }
  }

  /** `str(KeyError('content'))` is the quoted key. */
  lemma MissingContentMessage()
    ensures Message(KeyError("content")) == "'content'"
  {
    assert forall i :: 0 <= i < |"content"| ==> 'a' <= "content"[i] <= 'z';
    WordKeyMessage("content", "'content'");
  }

  /** Exactly one handler runs, on the whole routing state, and its outcome
      decides the envelope: an exception becomes its message, `None` becomes
      the "no agent" error, anything else is the success result. */
  lemma DispatchesToTopLabel(request: map<string, Value>, classifier: Classifier, handlers: Handlers, category: string)
    requires BuildState(request).Success?
    requires var state := BuildState(request).value;
             && classifier(state["input"], Labels).Success?
             && |classifier(state["input"], Labels).value| > 0
             && classifier(state["input"], Labels).value[0] == category
    requires category in Labels
    ensures var out := HandlerFor(handlers, category)(BuildState(request).value);
            ProcessInput(request, classifier, handlers)
              == (match out
                  case Failure(e) => Error(Message(e))
                  case Success(v) => if v == Null then Error(NoAgentMessage) else Succeeded(v))
  {
  }

  /** A top label that names no graph node is a missing key of the node
      table, reported as `repr` of the label. */
  lemma UnknownLabelIsKeyError(request: map<string, Value>, classifier: Classifier, handlers: Handlers, category: string)
    requires BuildState(request).Success?
    requires var state := BuildState(request).value;
             && classifier(state["input"], Labels).Success?
             && |classifier(state["input"], Labels).value| > 0
             && classifier(state["input"], Labels).value[0] == category
    requires category !in Labels && category != RouterNode
    ensures ProcessInput(request, classifier, handlers) == Error(Repr(category))
  {
  }

  /** A label the classifier could invent, "it's", is reported between
      double quotes, the way Python shows the key. */
  lemma ApostropheLabelMessage(request: map<string, Value>, classifier: Classifier, handlers: Handlers)
    requires BuildState(request).Success?
    requires var state := BuildState(request).value;
             && classifier(state["input"], Labels).Success?
             && |classifier(state["input"], Labels).value| > 0
             && classifier(state["input"], Labels).value[0] == "it's"
    ensures ProcessInput(request, classifier, handlers) == Error("\"it's\"")
  {
    assert "it's" !in Labels && "it's" != RouterNode;
    UnknownLabelIsKeyError(request, classifier, handlers, "it's");
    ReprOfApostrophe();
  }

  /** A top label equal to the entry node's own name runs the router node a
      second time, whose output is that label. */
  lemma RouterLabelEchoes(request: map<string, Value>, classifier: Classifier, handlers: Handlers)
    requires BuildState(request).Success?
    requires var state := BuildState(request).value;
             && classifier(state["input"], Labels).Success?
             && |classifier(state["input"], Labels).value| > 0
             && classifier(state["input"], Labels).value[0] == RouterNode
    ensures ProcessInput(request, classifier, handlers) == Succeeded(Str(RouterNode))
  {
  }

  /** A metadata entry named "input" replaces the content, so the classifier
      and the handler see the metadata value instead. */
  lemma MetadataOverridesContent(request: map<string, Value>, extra: map<string, Value>)
    requires "content" in request && "metadata" in request && request["metadata"] == Dict(extra)
    requires "input" in extra
    ensures BuildState(request).Success? && BuildState(request).value["input"] == extra["input"]
  {
  }

  /** A classifier that ranks "text" first. */
  function AlwaysText(input: Value, candidates: seq<string>): Result<seq<string>, Exception> {
    Success(["text"])
  }

  /** Handlers that report which of them ran. */
  function Reporter(name: string): Handler {
    (state: State) => Success(Dict(map["handled_by" := Str(name)]))
  }

  /** With a classifier that always ranks "text" first, the request
      `{"content": "hello"}` is handled by the text agent. */
  lemma HelloIsHandledAsText()
    ensures ProcessInput(map["content" := Str("hello")], AlwaysText,
                         Handlers(Reporter("text"), Reporter("image"), Reporter("file"), Reporter("link")))
            == Succeeded(Dict(map["handled_by" := Str("text")]))
  {
  }
}

=== FILE: routes.dfy ===
/** The HTTP routes: `/health`, `/process` (the request body goes to the
    router unchanged) and `/upload`, which derives the file type from the
    uploaded file's name, stores the file under the upload directory and
    routes `{content: stored path, metadata: {file_type}}`. Paths follow
    POSIX `os.path` rules. */
module Routes {
  import opened Wrappers
  import opened PyValues
  import Router
  import FileAgent
  import Wiring

  /** `str.rfind(c)`: the last index of `c`, or -1. */
  function RFind(s: string, c: char): (i: int)
    ensures -1 <= i < |s|
    ensures i >= 0 ==> s[i] == c
    ensures forall k :: i < k < |s| ==> s[k] != c
  {
    if |s| == 0 then -1
    else if s[|s| - 1] == c then |s| - 1
    else RFind(s[..|s| - 1], c)
  }

  /** The loop of `splitext` that skips leading dots: is there a character
      other than '.' in `p[lo..hi]`? */
  function HasNonDot(p: string, lo: nat, hi: nat): (b: bool)
    requires lo <= hi <= |p|
    ensures b <==> !AllDots(p[lo..hi])
    decreases hi - lo
  {
    if lo == hi then false
    else if p[lo] != '.' then true
    else
      assert p[lo..hi] == [p[lo]] + p[lo + 1..hi];
      HasNonDot(p, lo + 1, hi)
  }

  predicate AllDots(s: string) {
    forall k :: 0 <= k < |s| ==> s[k] == '.'
  }

  /** `os.path.splitext(p)`: splits at the last dot when it lies in the last
      path component and is not one of that component's leading dots. */
  function SplitExt(p: string): (r: (string, string))
    ensures r.0 + r.1 == p
  {
    var sep := RFind(p, '/');
    var dot := RFind(p, '.');
    if dot > sep && HasNonDot(p, sep + 1, dot) then (p[..dot], p[dot..]) else (p, "")
  }

  /** `s.lstrip(".")`. */
  function LStripDots(s: string): (r: string)
    ensures |r| <= |s|
    ensures |r| == 0 || r[0] != '.'
  {
    if |s| > 0 && s[0] == '.' then LStripDots(s[1..]) else s
  }

  /** `lstrip(".")` keeps a suffix and drops only dots before it. */
  lemma {:induction false} LStripDotsDropsDots(s: string)
    ensures LStripDots(s) == s[|s| - |LStripDots(s)|..]
    ensures forall i :: 0 <= i < |s| - |LStripDots(s)| ==> s[i] == '.'
    decreases |s|
  {
    if |s| > 0 && s[0] == '.' {
      LStripDotsDropsDots(s[1..]);
    }
  }

  function AsciiLowerChar(c: char): char {
    if 'A' <= c <= 'Z' then (c as int + 32) as char else c
  }

  /** `s.lower()` on ASCII letters: the result holds no upper-case ASCII
      letter, every upper-case letter becomes the letter 32 code points
      above it, and everything else is kept. */
  function AsciiLower(s: string): (r: string)
    ensures |r| == |s|
    ensures forall i :: 0 <= i < |r| ==> !('A' <= r[i] <= 'Z')
    ensures forall i :: 0 <= i < |s| && 'A' <= s[i] <= 'Z' ==> r[i] as int == s[i] as int + 32
    ensures forall i :: 0 <= i < |s| && !('A' <= s[i] <= 'Z') ==> r[i] == s[i]
  {
    seq(|s|, i requires 0 <= i < |s| => AsciiLowerChar(s[i]))
  }

  /** Lower-casing twice is lower-casing once. */
  lemma AsciiLowerIdempotent(s: string)
    ensures AsciiLower(AsciiLower(s)) == AsciiLower(s)
  {
  }

  /** `os.path.splitext(filename)[1].lstrip(".").lower()`. */
  function FileExt(filename: string): (r: string)
    ensures |r| < |filename| || r == ""
    ensures forall i :: 0 <= i < |r| ==> r[i] != '.' && r[i] != '/'
  {
    RawExtHasNoDotOrSlash(filename);
    AsciiLower(RawExt(filename))
  }

  /** The extension after stripping its dots holds no dot and no '/': the
      split is at the last dot, which lies after the last '/'. */
  lemma RawExtHasNoDotOrSlash(p: string)
    ensures |RawExt(p)| < |p| || RawExt(p) == ""
    ensures forall i :: 0 <= i < |RawExt(p)| ==> RawExt(p)[i] != '.' && RawExt(p)[i] != '/'
  {
    var sep := RFind(p, '/');
    var dot := RFind(p, '.');
    if dot > sep && HasNonDot(p, sep + 1, dot) {
      var ext := p[dot..];
      assert ext[0] == '.';
      assert forall i :: 1 <= i < |ext| ==> ext[i] != '.' && ext[i] != '/';
      assert LStripDots(ext) == LStripDots(ext[1..]);
      assert |ext[1..]| == 0 || ext[1..][0] != '.';
      assert LStripDots(ext[1..]) == ext[1..];
    }
  }

  /** The last path component. */
  function LastComponent(p: string): string {
    p[RFind(p, '/') + 1..]
  }

  /** The file type described directly: the lower-cased text after the last
      dot of the last path component, provided something other than dots
      comes before that dot; otherwise empty. */
  function ExtensionOf(filename: string): string {
    AsciiLower(RawExtensionOf(filename))
  }

  /** `os.path.join(directory, filename)`: an absolute filename replaces the
      directory, otherwise one '/' separates them. */
  function JoinPath(directory: string, filename: string): (r: string)
    ensures |filename| > 0 && filename[0] == '/' ==> r == filename
    ensures (|filename| == 0 || filename[0] != '/') && (|directory| == 0 || directory[|directory| - 1] == '/') ==>
              r == directory + filename
    ensures (|filename| == 0 || filename[0] != '/') && |directory| > 0 && directory[|directory| - 1] != '/' ==>
              r == directory + "/" + filename
  {
    if |filename| > 0 && filename[0] == '/' then filename
    else if |directory| == 0 || directory[|directory| - 1] == '/' then directory + filename
    else directory + "/" + filename
  }

  /** The request `/upload` hands to the router for a stored file. */
  function FileRequest(path: string, fileType: string): (r: map<string, Value>)
    ensures r.Keys == {"content", "metadata"}
    ensures r["content"] == Str(path)
    ensures r["metadata"] == Dict(map["file_type" := Str(fileType)])
  {
    map["content" := Str(path), "metadata" := Dict(map["file_type" := Str(fileType)])]
  }

  function UploadRequest(uploadDir: string, filename: string): map<string, Value>
  {
    FileRequest(JoinPath(uploadDir, filename), FileExt(filename))
  }

  /** `upload_file`: the stored file's path and type routed through the
      router. Writing the file's bytes is not modelled. */
  function Upload(uploadDir: string, filename: string, classifier: Router.Classifier, handlers: Router.Handlers): (r: Router.Response)
    ensures r == Router.ProcessInput(UploadRequest(uploadDir, filename), classifier, handlers)
  {
    Router.ProcessInput(UploadRequest(uploadDir, filename), classifier, handlers)
  }

  /** `health`. */
  function Health(): (r: map<string, string>)
    ensures r.Keys == {"status"} && r["status"] == "ok"
  {
    map["status" := "ok"]
  }

  /** `process_input`: the body is forwarded to the router as it is. */
  function Process(body: map<string, Value>, classifier: Router.Classifier, handlers: Router.Handlers): (r: Router.Response)
    ensures r == Router.ProcessInput(body, classifier, handlers)
  {
    Router.ProcessInput(body, classifier, handlers)
  }

  /** `rfind` of a suffix is `rfind` of the whole, shifted, when the last
      occurrence lies in the suffix, and -1 otherwise. */
  lemma RFindSuffix(s: string, c: char, j: nat)
    requires j <= |s|
    ensures RFind(s[j..], c) == if RFind(s, c) >= j then RFind(s, c) - j else -1
  {
    var t := s[j..];
    var i := RFind(s, c);
    var expected := if i >= j then i - j else -1;
    RFindUnique(t, c, expected);
  }

  /** `rfind` is determined by its contract. */
  lemma RFindUnique(s: string, c: char, i: int)
    requires -1 <= i < |s|
    requires i >= 0 ==> s[i] == c
    requires forall k :: i < k < |s| ==> s[k] != c
    ensures RFind(s, c) == i
  {
  }

  /** Stripping the dot of an extension leaves the text after it. */
  lemma StripExtensionDot(ext: string)
    requires |ext| > 0 && ext[0] == '.'
    requires forall k :: 0 < k < |ext| ==> ext[k] != '.'
    ensures LStripDots(ext) == ext[1..]
  {
    var rest := ext[1..];
    assert LStripDots(ext) == LStripDots(rest);
    if |rest| > 0 {
      assert rest[0] == ext[1];
    }
  }

  /** The last dot of the last component, located in the whole path. */
  lemma ComponentDot(p: string)
    ensures var sep := RFind(p, '/');
            var dot := RFind(p, '.');
            RFind(LastComponent(p), '.') == if dot > sep then dot - sep - 1 else -1
  {
    var sep := RFind(p, '/');
    RFindSuffix(p, '.', sep + 1);
  }

  /** Stripping the last dot of a path leaves the text after it. */
  lemma StripLastDot(p: string)
    requires RFind(p, '.') >= 0
    ensures LStripDots(p[RFind(p, '.')..]) == p[RFind(p, '.') + 1..]
  {
    var dot := RFind(p, '.');
    var ext := p[dot..];
    forall k | 0 < k < |ext|
      ensures ext[k] != '.'
    {
      assert ext[k] == p[dot + k];
    }
    StripExtensionDot(ext);
  }

  /** The extension before lower-casing, as `/upload` computes it. */
  function RawExt(p: string): string {
    LStripDots(SplitExt(p).1)
  }

  /** The extension before lower-casing, as `ExtensionOf` describes it:
      the text after the last dot when that dot lies after the last '/'
      (so in the last component, by `ComponentDot`) and something other
      than dots comes between the two. */
  function RawExtensionOf(p: string): string {
    var sep := RFind(p, '/');
    var dot := RFind(p, '.');
    if dot > sep && !AllDots(p[sep + 1..dot]) then p[dot + 1..] else ""
  }

  lemma RawExtIsRawExtensionOf(p: string)
    ensures RawExt(p) == RawExtensionOf(p)
  {
    var sep := RFind(p, '/');
    var dot := RFind(p, '.');
    if dot > sep && HasNonDot(p, sep + 1, dot) {
      assert SplitExt(p).1 == p[dot..];
      StripLastDot(p);
    } else {
      assert SplitExt(p).1 == "";
    }
  }

  /** The file type `/upload` computes is the one `ExtensionOf` describes. */
  lemma FileExtIsExtensionOf(filename: string)
    ensures FileExt(filename) == ExtensionOf(filename)
  {
    RawExtIsRawExtensionOf(filename);
  }

  /** "a.tar.gz" has type "gz": only the last dot counts. */
  lemma FileExtLastDot()
    ensures FileExt("a.tar.gz") == "gz"
  {
    assert RFind("a.tar.gz", '/') == -1 by { RFindUnique("a.tar.gz", '/', -1); }
    assert RFind("a.tar.gz", '.') == 5 by { RFindUnique("a.tar.gz", '.', 5); }
    assert HasNonDot("a.tar.gz", 0, 5) by { assert "a.tar.gz"[0] != '.'; }
    assert SplitExt("a.tar.gz").1 == ".gz";
    StripExtensionDot(".gz");
    assert AsciiLower("gz") == "gz";
  }

  /** ".env" has no type: a leading dot does not start an extension. */
  lemma FileExtDotfile()
    ensures FileExt(".env") == ""
  {
    assert RFind(".env", '/') == -1 by { RFindUnique(".env", '/', -1); }
    assert RFind(".env", '.') == 0 by { RFindUnique(".env", '.', 0); }
    assert SplitExt(".env").1 == "";
  }

  /** "README" has no type. */
  lemma FileExtNoDot()
    ensures FileExt("README") == ""
  {
    assert RFind("README", '.') == -1 by { RFindUnique("README", '.', -1); }
    assert SplitExt("README").1 == "";
  }

  /** "report.PDF" has type "pdf", which the file agent accepts. */
  lemma FileExtLowerCases()
    ensures FileExt("report.PDF") == "pdf"
  {
    assert RFind("report.PDF", '/') == -1 by { RFindUnique("report.PDF", '/', -1); }
    assert RFind("report.PDF", '.') == 6 by { RFindUnique("report.PDF", '.', 6); }
    assert HasNonDot("report.PDF", 0, 6) by { assert "report.PDF"[0] != '.'; }
    assert SplitExt("report.PDF").1 == ".PDF";
    StripExtensionDot(".PDF");
    assert AsciiLower("PDF") == "pdf";
  }

  /** An absolute filename replaces the upload directory. */
  lemma AbsoluteFilenameEscapesUploadDir(uploadDir: string, filename: string)
    requires |filename| > 0 && filename[0] == '/'
    ensures UploadRequest(uploadDir, filename) == FileRequest(filename, FileExt(filename))
  {
  }

  /** The router sees the stored path as input and the derived type as the
      "file_type" entry, and nothing else. */
  lemma UploadState(path: string, fileType: string)
    ensures Router.BuildState(FileRequest(path, fileType))
            == Success(map["input" := Str(path), "file_type" := Str(fileType)])
  {
    var st := Router.BuildState(FileRequest(path, fileType));
    var expected := map["input" := Str(path), "file_type" := Str(fileType)];
    assert st.Success?;
    assert st.value.Keys == expected.Keys;
    assert st.value == expected;
  }

  /** The path and type the router sees when "report.PDF" is uploaded. */
  lemma ReportPdfState(uploadDir: string)
    ensures Router.BuildState(UploadRequest(uploadDir, "report.PDF"))
            == Success(map["input" := Str(JoinPath(uploadDir, "report.PDF")), "file_type" := Str("pdf")])
  {
    FileExtLowerCases();
    UploadState(JoinPath(uploadDir, "report.PDF"), "pdf");
  }

  /** Uploading "report.PDF" when the classifier ranks "file" first: the
      file node as wired answers with an error. */
  lemma UploadReportPdfAsWritten(uploadDir: string, classifier: Router.Classifier, handlers: Router.Handlers)
    requires var path := Str(JoinPath(uploadDir, "report.PDF"));
             && classifier(path, Router.Labels).Success?
             && |classifier(path, Router.Labels).value| > 0
             && classifier(path, Router.Labels).value[0] == "file"
    ensures Upload(uploadDir, "report.PDF", classifier, handlers.(file := Wiring.FileNodeAsWritten))
            == Router.Error(Wiring.MissingFileTypeMessage)
  {
    ReportPdfState(uploadDir);
    var request := UploadRequest(uploadDir, "report.PDF");
    Wiring.FileRoutedRequestsFailAsWritten(request, classifier, handlers.(file := Wiring.FileNodeAsWritten));
  }

  /** Uploading "report.PDF" when the classifier ranks "file" first: the
      corrected file node runs the PDF branch on the stored path, and the
      upload succeeds exactly when every page's text could be read. */
  lemma UploadReportPdf(uploadDir: string, classifier: Router.Classifier, handlers: Router.Handlers,
                        pdf: FileAgent.PdfPages, csv: FileAgent.CsvTable)
    requires var path := Str(JoinPath(uploadDir, "report.PDF"));
             && classifier(path, Router.Labels).Success?
             && |classifier(path, Router.Labels).value| > 0
             && classifier(path, Router.Labels).value[0] == "file"
    ensures var path := JoinPath(uploadDir, "report.PDF");
            var r := Upload(uploadDir, "report.PDF", classifier, handlers.(file := Wiring.FileNode(pdf, csv)));
            && (r.Succeeded? <==> pdf(path).Success? && FileAgent.AllExtracted(pdf(path).value))
            && (r.Succeeded? ==> r.result == FileAgent.Process(path, "pdf", pdf, csv).value.AsValue())
  {
    ReportPdfState(uploadDir);
    var request := UploadRequest(uploadDir, "report.PDF");
    var path := JoinPath(uploadDir, "report.PDF");
    var state := Router.BuildState(request).value;
    var fixed := handlers.(file := Wiring.FileNode(pdf, csv));
    Router.DispatchesToTopLabel(request, classifier, fixed, "file");
    Wiring.FileNodeRunsAgent(state, pdf, csv, path, "pdf");
  }
}

=== FILE: short_term.dfy ===
/** Short-term conversational memory: a bounded FIFO buffer of messages
    (a `deque` with `maxlen = capacity`) and a summary of its contents. */
module ShortTerm {
  import opened Wrappers
  import opened PyValues
  import Strings

  /** A summariser service: condenses a text, or raises. */
  type Summarizer = string -> Result<string, Exception>

  datatype Memory = Memory(capacity: nat, buffer: seq<string>)

  /** The buffer never holds more than `capacity` messages. */
  ghost predicate Valid(m: Memory) {
    |m.buffer| <= m.capacity
  }

  /** The last `n` elements of `s` (all of `s` when it is shorter). */
  function Last<T>(s: seq<T>, n: nat): (r: seq<T>)
    ensures |r| == if |s| <= n then |s| else n
  {
    if |s| <= n then s else s[|s| - n..]
  }

  /** The capacity `ShortTermMemory()` gets when none is given. */
  const DefaultCapacity: int := 5

  /** `ShortTermMemory(capacity)`: an empty buffer; a negative capacity is
      rejected the way `deque(maxlen=...)` rejects it. */
  function New(capacity: int): (r: Result<Memory, Exception>)
    ensures r.Failure? <==> capacity < 0
    ensures r.Failure? ==> r.error == ValueError("maxlen must be non-negative")
    ensures r.Success? ==> Valid(r.value) && r.value.buffer == [] && r.value.capacity == capacity
  {
    if capacity < 0 then Failure(ValueError("maxlen must be non-negative"))
    else Success(Memory(capacity, []))
  }

  /** `_add`: appends the message, evicting the oldest one when the buffer is
      full, and returns the message itself. */
  function Add(m: Memory, message: string): (r: (Memory, string))
    requires Valid(m)
    ensures Valid(r.0) && r.0.capacity == m.capacity
    ensures r.1 == message
    ensures |m.buffer| < m.capacity ==> r.0.buffer == m.buffer + [message]
    ensures 0 < |m.buffer| == m.capacity ==> r.0.buffer == m.buffer[1..] + [message]
    ensures m.capacity == 0 ==> r.0.buffer == []
  {
    (Memory(m.capacity, Last(m.buffer + [message], m.capacity)), message)
  }

  /** Adds the messages one after the other. */
  function AddAll(m: Memory, messages: seq<string>): (r: Memory)
    requires Valid(m)
    ensures Valid(r) && r.capacity == m.capacity
    decreases |messages|
  {
    if |messages| == 0 then m
    else AddAll(Add(m, messages[0]).0, messages[1..])
  }

  /** `" ".join(buffer)`. */
  function Join(parts: seq<string>): (r: string)
    ensures |parts| == 0 ==> r == ""
    ensures |parts| > 0 ==> parts[0] <= r
    ensures |parts| > 0 ==> |parts[|parts| - 1]| <= |r| && r[|r| - |parts[|parts| - 1]|..] == parts[|parts| - 1]
  {
    if |parts| == 0 then ""
    else if |parts| == 1 then parts[0]
    else parts[0] + " " + Join(parts[1..])
  }

  /** `_summarize`: the summariser's condensation of the space-joined buffer,
      or exactly that joined text when the summariser raises. */
  function Summarize(m: Memory, summarizer: Summarizer): (r: string)
    ensures summarizer(Join(m.buffer)).Success? ==> r == summarizer(Join(m.buffer)).value
    ensures summarizer(Join(m.buffer)).Failure? ==> r == Join(m.buffer)
  {
    var text := Join(m.buffer);
    match summarizer(text)
    case Success(summary) => summary
    case Failure(_) => text
  }

  /** `get_context`: the buffered messages, oldest first. */
  function GetContext(m: Memory): (r: seq<string>)
    ensures r == m.buffer
    ensures Valid(m) ==> |r| <= m.capacity
  {
    m.buffer
  }

  /** `add_and_summarize`, taken as `_add` followed by `_summarize`. */
  function AddAndSummarize(m: Memory, message: string, summarizer: Summarizer): (r: (Memory, string))
    requires Valid(m)
    ensures Valid(r.0) && r.0 == Add(m, message).0
    ensures r.1 == Summarize(r.0, summarizer)
  {
    var (m', _) := Add(m, message);
    (m', Summarize(m', summarizer))
  }

  /** FIFO: after adding messages to a buffer, the buffer holds the last
      `capacity` of the old contents followed by the new messages, in
      insertion order. */
  lemma {:induction false} AddAllKeepsLastWindow(m: Memory, messages: seq<string>)
    requires Valid(m)
    ensures GetContext(AddAll(m, messages)) == Last(m.buffer + messages, m.capacity)
    decreases |messages|
  {
    if |messages| == 0 {
      assert m.buffer + messages == m.buffer;
    } else {
      var head := m.buffer + [messages[0]];
      var m' := Add(m, messages[0]).0;
      assert m'.buffer == Last(head, m.capacity);
      AddAllKeepsLastWindow(m', messages[1..]);
      assert m.buffer + messages == head + messages[1..];
      LastWindowTwice(head, messages[1..], m.capacity);
    }
  }

  /** Taking the last `n` elements twice, with an append in between, is
      taking them once. */
  lemma LastWindowTwice<T>(s: seq<T>, t: seq<T>, n: nat)
    ensures Last(Last(s, n) + t, n) == Last(s + t, n)
  {
    if |s| > n {
      var u := s[|s| - n..] + t;
      var a := u[|t|..];
      var b := (s + t)[|s| + |t| - n..];
      assert |a| == |b| == n;
      forall i | 0 <= i < n
        ensures a[i] == b[i]
      {
        if |t| + i < n {
          assert a[i] == s[|s| - n + |t| + i];
        } else {
          assert a[i] == t[|t| + i - n];
        }
      }
      assert a == b;
    }
  }

  /** From an empty buffer, adding m1..mk leaves the last min(k, capacity)
      messages in insertion order. */
  lemma FromEmptyKeepsLastMessages(capacity: nat, messages: seq<string>)
    ensures GetContext(AddAll(Memory(capacity, []), messages)) == Last(messages, capacity)
  {
    AddAllKeepsLastWindow(Memory(capacity, []), messages);
    assert [] + messages == messages;
  }

  /** With the default capacity the context is the last five messages
      added to a fresh memory. */
  lemma DefaultKeepsLastFive(messages: seq<string>)
    ensures New(DefaultCapacity).Success?
    ensures GetContext(AddAll(New(DefaultCapacity).value, messages)) == Last(messages, 5)
  {
    FromEmptyKeepsLastMessages(5, messages);
  }

  /** Capacity 2 with "a", "b", "c" keeps ["b", "c"]. */
  lemma CapacityTwoExample()
    ensures GetContext(AddAll(Memory(2, []), ["a", "b", "c"])) == ["b", "c"]
  {
    FromEmptyKeepsLastMessages(2, ["a", "b", "c"]);
  }

  /** The joined text is the messages plus one space between neighbours. */
  lemma {:induction false} JoinLength(parts: seq<string>)
    requires |parts| > 0
    ensures |Join(parts)| == Strings.TotalLength(parts) + |parts| - 1
  {
    if |parts| > 1 {
      JoinLength(parts[1..]);
    }
  }

  /** Joining one more message appends a space and that message. */
  lemma {:induction false} JoinSnoc(parts: seq<string>, x: string)
    requires |parts| > 0
    ensures Join(parts + [x]) == Join(parts) + " " + x
  {
    var p := parts + [x];
    assert p[0] == parts[0];
    if |parts| == 1 {
      assert p[1..] == [x];
      assert Join(p) == parts[0] + " " + x;
    } else {
      assert p[1..] == parts[1..] + [x];
      JoinSnoc(parts[1..], x);
      assert Join(p) == parts[0] + " " + Join(parts[1..] + [x]);
    }
  }

  /** When the summariser fails, the summary returned right after adding a
      message ends with that message (for any positive capacity). */
  lemma FallbackSummaryEndsWithMessage(m: Memory, message: string, summarizer: Summarizer)
    requires Valid(m) && m.capacity > 0
    requires summarizer(Join(AddAndSummarize(m, message, summarizer).0.buffer)).Failure?
    ensures var s := AddAndSummarize(m, message, summarizer).1;
            |s| >= |message| && s[|s| - |message|..] == message
  {
    var b := AddAndSummarize(m, message, summarizer).0.buffer;
    assert b == Last(m.buffer + [message], m.capacity);
    assert |b| > 0 && b[|b| - 1] == message;
    if |b| > 1 {
      assert b == b[..|b| - 1] + [message];
      JoinSnoc(b[..|b| - 1], message);
    }
  }
}

=== FILE: strings.dfy ===
/** Facts about concatenating lists of strings. */
module Strings {

  /** `"".join(parts)`. */
  function Concat(parts: seq<string>): string
  {
    if |parts| == 0 then "" else parts[0] + Concat(parts[1..])
  }

  /** The sum of the lengths of the parts. */
  function TotalLength(parts: seq<string>): nat
  {
    if |parts| == 0 then 0 else |parts[0]| + TotalLength(parts[1..])
  }

  /** Concatenation distributes over splitting the list. */
  lemma {:induction false} ConcatAppend(a: seq<string>, b: seq<string>)
    ensures Concat(a + b) == Concat(a) + Concat(b)
    decreases |a|
  {
    if |a| == 0 {
      assert a + b == b;
    } else {
      assert (a + b)[1..] == a[1..] + b;
      ConcatAppend(a[1..], b);
    }
  }

  /** The concatenation is as long as its parts together. */
  lemma {:induction false} ConcatLength(parts: seq<string>)
    ensures |Concat(parts)| == TotalLength(parts)
    decreases |parts|
  {
    if |parts| > 0 {
      ConcatLength(parts[1..]);
    }
  }
}

=== FILE: vector_db.dfy ===
/** The local vector store: embeddings and their texts kept in two parallel
    lists, searched by dot product with a stable descending sort. Scores are
    integers here; the store itself works on floats. */
module VectorDb {
  import opened Wrappers
  import opened PyValues

  /** A remote call to the search service; it may raise. */
  type RemoteAdd = (seq<int>, string) -> Outcome<Exception>
  /** A remote search: the `texts` field of the response, `None` when absent. */
  type RemoteSearch = (seq<int>, int) -> Result<Option<seq<string>>, Exception>

  datatype Db = Db(endpoint: Option<string>, key: Option<string>, vectors: seq<seq<int>>, texts: seq<string>)

  /** The two lists stay the same length, entry i of one belonging to entry
      i of the other. */
  ghost predicate Valid(db: Db) {
    |db.vectors| == |db.texts|
  }

  predicate IsRemote(db: Db) {
    Truthy(db.endpoint) && Truthy(db.key)
  }

  /** `VectorDB()`: an empty store. */
  function New(endpoint: Option<string>, key: Option<string>): (db: Db)
    ensures Valid(db) && db.vectors == [] && db.texts == []
  {
    Db(endpoint, key, [], [])
  }

  /** `add`: sent to the remote service when it is configured, otherwise
      appended to both lists together. */
  function Add(db: Db, embedding: seq<int>, text: string, remote: RemoteAdd): (r: Result<Db, Exception>)
    requires Valid(db)
    ensures r.Success? ==> Valid(r.value)
    ensures IsRemote(db) ==> r == (match remote(embedding, text) case Pass => Success(db) case Fail(e) => Failure(e))
    ensures !IsRemote(db) ==>
              && r.Success?
              && |r.value.vectors| == |db.vectors| + 1
              && r.value.vectors[..|db.vectors|] == db.vectors && r.value.texts[..|db.texts|] == db.texts
              && r.value.vectors[|db.vectors|] == embedding && r.value.texts[|db.texts|] == text
  {
    if IsRemote(db) then
      match remote(embedding, text)
      case Pass => Success(db)
      case Fail(e) => Failure(e)
    else
      var db' := db.(vectors := db.vectors + [embedding], texts := db.texts + [text]);
      assert db'.vectors[..|db.vectors|] == db.vectors;
      assert db'.texts[..|db.texts|] == db.texts;
      Success(db')
  }

  /** `sum(e * q for e, q in zip(v, w))`: `zip` stops at the shorter list. */
  function Dot(v: seq<int>, w: seq<int>): int
  {
    if |v| == 0 || |w| == 0 then 0 else v[0] * w[0] + Dot(v[1..], w[1..])
  }

  function Min(a: int, b: int): int {
    if a <= b then a else b
  }

  /** The score only depends on the common prefix of both vectors. */
  lemma {:induction false} DotTruncates(v: seq<int>, w: seq<int>)
    ensures Dot(v, w) == Dot(v[..Min(|v|, |w|)], w[..Min(|v|, |w|)])
    decreases |v|
  {
    if |v| > 0 && |w| > 0 {
      var m := Min(|v|, |w|);
      DotTruncates(v[1..], w[1..]);
      assert v[..m][1..] == v[1..][..m - 1];
      assert w[..m][1..] == w[1..][..m - 1];
    }
  }

  /** The score of every stored vector against the query. */
  function Scores(vectors: seq<seq<int>>, query: seq<int>): (s: seq<int>)
    ensures |s| == |vectors|
    ensures forall i :: 0 <= i < |s| ==> s[i] == Dot(vectors[i], query)
  {
    seq(|vectors|, i requires 0 <= i < |vectors| => Dot(vectors[i], query))
  }

  /** Index `a` comes before index `b` in the ranking: a higher score, or an
      equal score and an earlier insertion (the sort is stable). */
  predicate Before(scores: seq<int>, a: nat, b: nat)
    requires a < |scores| && b < |scores|
  {
    scores[a] > scores[b] || (scores[a] == scores[b] && a < b)
  }

  ghost predicate InRange(scores: seq<int>, r: seq<nat>) {
    forall k :: 0 <= k < |r| ==> r[k] < |scores|
  }

  /** Every earlier index of the ranking comes before every later one. */
  ghost predicate Ranked(scores: seq<int>, r: seq<nat>)
    requires InRange(scores, r)
  {
    forall i, j :: 0 <= i < j < |r| ==> Before(scores, r[i], r[j])
  }

  /** Inserts index `x` into a ranking at its place. */
  function Insert(scores: seq<int>, x: nat, r: seq<nat>): (r': seq<nat>)
    requires x < |scores| && InRange(scores, r) && Ranked(scores, r)
    requires forall k :: 0 <= k < |r| ==> r[k] != x
    ensures InRange(scores, r') && Ranked(scores, r')
    ensures multiset(r') == multiset(r) + multiset{x}
  {
    if |r| == 0 then [x]
    else if Before(scores, r[0], x) then
      TailRanked(scores, r);
      var rest := Insert(scores, x, r[1..]);
      HeadBeforeInserted(scores, x, r, rest);
      ConsRanked(scores, r[0], rest);
      ConsMultiset(r, rest, x);
      [r[0]] + rest
    else
      InsertedBeforeAll(scores, x, r);
      ConsRanked(scores, x, r);
      [x] + r
  }

  /** Putting the head back in front of the tail with `x` inserted gives
      the whole with `x` added. */
  lemma ConsMultiset(r: seq<nat>, rest: seq<nat>, x: nat)
    requires |r| > 0 && multiset(rest) == multiset(r[1..]) + multiset{x}
    ensures multiset([r[0]] + rest) == multiset(r) + multiset{x}
  {
    assert r == [r[0]] + r[1..];
  }

  /** An index that comes before every member of a ranking can lead it. */
  lemma ConsRanked(scores: seq<int>, h: nat, rest: seq<nat>)
    requires h < |scores| && InRange(scores, rest) && Ranked(scores, rest)
    requires forall k :: 0 <= k < |rest| ==> Before(scores, h, rest[k])
    ensures InRange(scores, [h] + rest) && Ranked(scores, [h] + rest)
  {
    var s := [h] + rest;
    assert InRange(scores, s) by {
      forall k | 0 <= k < |s|
        ensures s[k] < |scores|
      {
        if k > 0 {
          assert s[k] == rest[k - 1];
        }
      }
    }
    forall i, j | 0 <= i < j < |s|
      ensures Before(scores, s[i], s[j])
    {
      assert s[j] == rest[j - 1];
      if i > 0 {
        assert s[i] == rest[i - 1];
      }
    }
  }

  /** The head of a ranking still comes first after `x`, ranked below it,
      is inserted into the tail. */
  lemma HeadBeforeInserted(scores: seq<int>, x: nat, r: seq<nat>, rest: seq<nat>)
    requires x < |scores| && |r| > 0 && InRange(scores, r) && Ranked(scores, r)
    requires Before(scores, r[0], x)
    requires InRange(scores, rest) && multiset(rest) == multiset(r[1..]) + multiset{x}
    ensures forall k :: 0 <= k < |rest| ==> Before(scores, r[0], rest[k])
  {
    forall k | 0 <= k < |rest|
      ensures Before(scores, r[0], rest[k])
    {
      assert rest[k] in multiset(rest);
      if rest[k] != x {
        assert rest[k] in multiset(r[1..]);
        var m :| 0 <= m < |r[1..]| && r[1..][m] == rest[k];
        assert r[m + 1] == rest[k];
      }
    }
  }

  /** An index that does not come after the head of a ranking comes before
      all of it. */
  lemma InsertedBeforeAll(scores: seq<int>, x: nat, r: seq<nat>)
    requires x < |scores| && |r| > 0 && InRange(scores, r) && Ranked(scores, r)
    requires !Before(scores, r[0], x) && x != r[0]
    ensures forall k :: 0 <= k < |r| ==> Before(scores, x, r[k])
  {
    forall k | 0 <= k < |r|
      ensures Before(scores, x, r[k])
    {
      if k > 0 {
        assert Before(scores, r[0], r[k]);
      }
    }
  }

  /** `range(n)`. */
  function Range(n: nat): (r: seq<nat>)
    ensures |r| == n && forall k :: 0 <= k < n ==> r[k] == k
  {
    seq(n, k requires 0 <= k => k as nat)
  }

  /** The first `n` indices in ranking order:
      `sorted(range(n), key=score, reverse=True)`. */
  function RankPrefix(scores: seq<int>, n: nat): (r: seq<nat>)
    requires n <= |scores|
    ensures InRange(scores, r) && Ranked(scores, r)
    ensures multiset(r) == multiset(Range(n))
    ensures forall k :: 0 <= k < |r| ==> r[k] < n
  {
    if n == 0 then []
    else
      var prev := RankPrefix(scores, n - 1);
      assert Range(n) == Range(n - 1) + [n - 1];
      var r := Insert(scores, n - 1, prev);
      MembersBelow(r, n);
      r
  }

  /** A permutation of `range(n)` holds only indices below `n`. */
  lemma MembersBelow(r: seq<nat>, n: nat)
    requires multiset(r) == multiset(Range(n))
    ensures forall k :: 0 <= k < |r| ==> r[k] < n
  {
    forall k | 0 <= k < |r|
      ensures r[k] < n
    {
      assert r[k] in multiset(r);
      assert r[k] in multiset(Range(n));
      var m :| 0 <= m < n && Range(n)[m] == r[k];
    }
  }

  function Rank(scores: seq<int>): seq<nat>
  {
    RankPrefix(scores, |scores|)
  }

  /** Python's `xs[:k]`: a negative `k` drops that many items from the end. */
  function Take<T>(xs: seq<T>, k: int): (r: seq<T>)
    ensures k >= 0 ==> |r| == Min(k, |xs|)
    ensures k < 0 ==> |r| == if |xs| + k < 0 then 0 else |xs| + k
    ensures r == xs[..|r|]
  {
    if k >= 0 then (if k <= |xs| then xs[..k] else xs)
    else if |xs| + k <= 0 then []
    else xs[..|xs| + k]
  }

  /** The indices `search` returns texts for, best first. */
  function TopIndices(scores: seq<int>, k: int): seq<nat>
  {
    Take(Rank(scores), k)
  }

  /** The ranking lists every index exactly once. */
  lemma RankIsPermutation(scores: seq<int>, i: nat)
    requires i < |scores|
    ensures multiset(Rank(scores))[i] == 1
    ensures |Rank(scores)| == |scores|
  {
    assert |multiset(Rank(scores))| == |multiset(Range(|scores|))|;
    RangeCount(|scores|, i);
  }

  lemma {:induction false} RangeCount(n: nat, i: nat)
    requires i < n
    ensures multiset(Range(n))[i] == 1
  {
    if i < n - 1 {
      RangeCount(n - 1, i);
    } else if n > 1 {
      RangeAbove(n - 1);
    }
    assert Range(n) == Range(n - 1) + [n - 1];
  }

  lemma RangeAbove(n: nat)
    ensures n !in multiset(Range(n))
  {
    assert forall k :: 0 <= k < n ==> Range(n)[k] != n;
  }

  /** Top-k: the returned indices are the best ones. No index left out has a
      higher score than a returned one, and a returned index with a score
      equal to one left out was inserted earlier. */
  lemma TopIndicesAreBest(scores: seq<int>, k: int, i: nat, j: nat)
    requires i < |scores| && j < |scores|
    requires i in TopIndices(scores, k) && j !in TopIndices(scores, k)
    ensures Before(scores, i, j)
  {
    var rank := Rank(scores);
    var top := TopIndices(scores, k);
    RankIsPermutation(scores, j);
    assert j in multiset(rank);
    var q :| 0 <= q < |rank| && rank[q] == j;
    var p :| 0 <= p < |top| && top[p] == i;
    assert rank[p] == i;
  }

  /** The `top_k` `search` uses when none is given. */
  const DefaultTopK: int := 1

  /** With the default `top_k`, a local search of a non-empty store returns
      the one text whose score beats every other (ties going to the earlier
      entry). */
  lemma DefaultSearchIsBest(db: Db, query: seq<int>, remote: RemoteSearch)
    requires Valid(db) && !IsRemote(db) && |db.vectors| > 0
    ensures var scores := Scores(db.vectors, query);
            exists b :: 0 <= b < |db.texts|
              && Search(db, query, DefaultTopK, remote) == Success([db.texts[b]])
              && forall j :: 0 <= j < |scores| && j != b ==> Before(scores, b, j)
  {
    var scores := Scores(db.vectors, query);
    var top := TopIndices(scores, DefaultTopK);
    var r := Search(db, query, DefaultTopK, remote);
    assert |r.value| == 1;
    var b := top[0];
    assert r.value == [db.texts[b]];
    forall j | 0 <= j < |scores| && j != b
      ensures Before(scores, b, j)
    {
      assert top == [b];
      TopIndicesAreBest(scores, DefaultTopK, b, j);
    }
  }

  /** `search`: the texts of the `top_k` best-scoring entries, best first;
      no entries give no texts; remote mode returns the service's texts. */
  function Search(db: Db, query: seq<int>, topK: int, remote: RemoteSearch): (r: Result<seq<string>, Exception>)
    requires Valid(db)
    ensures IsRemote(db) ==>
              r == (match remote(query, topK)
                    case Failure(e) => Failure(e)
                    case Success(texts) => Success(texts.GetOr([])))
    ensures !IsRemote(db) ==> r.Success?
    ensures !IsRemote(db) && |db.vectors| == 0 ==> r == Success([])
    ensures !IsRemote(db) && topK >= 0 ==> |r.value| == Min(topK, |db.vectors|)
    ensures !IsRemote(db) ==>
              var top := TopIndices(Scores(db.vectors, query), topK);
              |r.value| == |top| && forall p :: 0 <= p < |top| ==> top[p] < |db.texts| && r.value[p] == db.texts[top[p]]
  {
    if IsRemote(db) then
      match remote(query, topK)
      case Failure(e) => Failure(e)
      case Success(texts) => Success(texts.GetOr([]))
    else if |db.vectors| == 0 then Success([])
    else
      var scores := Scores(db.vectors, query);
      var top := TopIndices(scores, topK);
      assert |Rank(scores)| == |scores| by {
        RankIsPermutation(scores, 0);
      }
      Success(seq(|top|, p requires 0 <= p < |top| => db.texts[top[p]]))
  }

  /** The returned texts come in non-increasing score order, ties in
      insertion order. */
  lemma SearchOrdered(scores: seq<int>, k: int, p: nat, q: nat)
    requires p < q < |TopIndices(scores, k)|
    ensures TopIndices(scores, k)[p] < |scores| && TopIndices(scores, k)[q] < |scores|
    ensures Before(scores, TopIndices(scores, k)[p], TopIndices(scores, k)[q])
  {
    var rank := Rank(scores);
    assert TopIndices(scores, k)[p] == rank[p] && TopIndices(scores, k)[q] == rank[q];
  }

  /** The head of a ranking comes before every other index in it. */
  lemma FirstComesBefore(scores: seq<int>, r: seq<nat>, x: nat)
    requires InRange(scores, r) && Ranked(scores, r) && |r| > 0
    requires x in multiset(r)
    ensures x < |scores|
    ensures x == r[0] || Before(scores, r[0], x)
  {
    var k :| 0 <= k < |r| && r[k] == x;
  }

  /** The ranking order is total, so there is only one ranked arrangement
      of a given set of indices: any stable descending sort of `range(n)`
      by score is `Rank`. */
  lemma {:induction false} RankedIsUnique(scores: seq<int>, r1: seq<nat>, r2: seq<nat>)
    requires InRange(scores, r1) && Ranked(scores, r1)
    requires InRange(scores, r2) && Ranked(scores, r2)
    requires multiset(r1) == multiset(r2)
    ensures r1 == r2
    decreases |r1|
  {
    assert |r1| == |multiset(r1)| == |multiset(r2)| == |r2|;
    if |r1| > 0 {
      SameHead(scores, r1, r2);
      TailRanked(scores, r1);
      TailRanked(scores, r2);
      RankedIsUnique(scores, r1[1..], r2[1..]);
      assert r1 == [r1[0]] + r1[1..];
      assert r2 == [r2[0]] + r2[1..];
    }
  }

  /** Two ranked arrangements of the same indices start alike, and what
      follows holds the same indices. */
  lemma SameHead(scores: seq<int>, r1: seq<nat>, r2: seq<nat>)
    requires InRange(scores, r1) && Ranked(scores, r1)
    requires InRange(scores, r2) && Ranked(scores, r2)
    requires multiset(r1) == multiset(r2) && |r1| > 0 && |r2| > 0
    ensures r1[0] == r2[0]
    ensures multiset(r1[1..]) == multiset(r2[1..])
  {
    assert r1[0] in multiset(r2) by { assert r1[0] in multiset(r1); }
    assert r2[0] in multiset(r1) by { assert r2[0] in multiset(r2); }
    FirstComesBefore(scores, r1, r2[0]);
    FirstComesBefore(scores, r2, r1[0]);
    TailMultiset(r1);
    TailMultiset(r2);
  }

  lemma TailMultiset(r: seq<nat>)
    requires |r| > 0
    ensures multiset(r[1..]) == multiset(r) - multiset{r[0]}
  {
    assert r == [r[0]] + r[1..];
  }

  /** The tail of a ranking is a ranking. */
  lemma TailRanked(scores: seq<int>, r: seq<nat>)
    requires InRange(scores, r) && Ranked(scores, r) && |r| > 0
    ensures InRange(scores, r[1..]) && Ranked(scores, r[1..])
  {
    forall i, j | 0 <= i < j < |r[1..]|
      ensures Before(scores, r[1..][i], r[1..][j])
    {
      assert r[1..][i] == r[i + 1] && r[1..][j] == r[j + 1];
    }
  }

  /** `Rank` is the stable descending sort of all indices by score. */
  lemma RankIsTheStableSort(scores: seq<int>, sorted: seq<nat>)
    requires InRange(scores, sorted) && Ranked(scores, sorted)
    requires multiset(sorted) == multiset(Range(|scores|))
    ensures sorted == Rank(scores)
  {
    RankedIsUnique(scores, sorted, Rank(scores));
  }
}

=== FILE: wiring.dfy ===
/** The graph node that hands the routing state to the file agent. The node
    passes the whole state as the one argument of
    `FileAgent.process(file_path, file_type)`, which needs two, so Python
    rejects every call before the agent runs. `FileNodeAsWritten` is that
    node; `FileNode` is the node that passes the state's input as the path
    and its "file_type" entry (empty when absent) as the type. */
module Wiring {
  import opened Wrappers
  import opened PyValues
  import Router
  import FileAgent

  const MissingFileTypeMessage: string := "FileAgent.process() missing 1 required positional argument: 'file_type'"

  /** The file node as wired: `self.agents["file"].process(state)`. */
  function FileNodeAsWritten(state: Router.State): (r: Result<Value, Exception>)
    ensures r == Failure(TypeError(MissingFileTypeMessage))
  {
    Failure(TypeError(MissingFileTypeMessage))
  }

  /** The file node with the arguments the agent takes:
      `process(state["input"], state.get("file_type", ""))`. */
  function FileNode(pdf: FileAgent.PdfPages, csv: FileAgent.CsvTable): Router.Handler
  {
    (state: Router.State) => RunFileNode(state, pdf, csv)
  }

  /** One run of the corrected file node: a state without "input" is a
      `KeyError`; an absent "file_type" is read as the empty type. A type
      other than "pdf" and "csv" is rejected with a `ValueError` showing
      `str` of the type, whatever the input. A "pdf" or "csv" type with a
      non-string input is a `TypeError`; otherwise the agent's answer is
      returned as a dictionary. */
  function RunFileNode(state: Router.State, pdf: FileAgent.PdfPages, csv: FileAgent.CsvTable): (r: Result<Value, Exception>)
    ensures "input" !in state ==> r == Failure(KeyError("input"))
    ensures "input" in state && "file_type" !in state ==>
              r == Failure(ValueError("Unsupported file type: "))
    ensures "input" in state && "file_type" in state && state["file_type"] != Str("pdf") && state["file_type"] != Str("csv") ==>
              r == Failure(ValueError("Unsupported file type: " + PyStr(state["file_type"])))
    ensures "input" in state && !state["input"].Str? && "file_type" in state && state["file_type"] in {Str("pdf"), Str("csv")} ==>
              r.Failure? && r.error.TypeError?
    ensures r.Success? ==>
              && "input" in state && state["input"].Str?
              && "file_type" in state && state["file_type"].Str?
              && FileAgent.Process(state["input"].s, state["file_type"].s, pdf, csv).Success?
              && r.value == FileAgent.Process(state["input"].s, state["file_type"].s, pdf, csv).value.AsValue()
  {
    assert "Unsupported file type: " + "" == "Unsupported file type: ";
    if "input" !in state then Failure(KeyError("input"))
    else
      var fileType := if "file_type" in state then state["file_type"] else Str("");
      if fileType != Str("pdf") && fileType != Str("csv") then
        Failure(ValueError("Unsupported file type: " + PyStr(fileType)))
      else if !state["input"].Str? then Failure(TypeError("file path must be a string"))
      else
        match FileAgent.Process(state["input"].s, fileType.s, pdf, csv)
        case Failure(e) => Failure(e)
        case Success(res) => Success(res.AsValue())
  }

  /** The corrected node runs the agent on the state's path and type. */
  lemma FileNodeRunsAgent(state: Router.State, pdf: FileAgent.PdfPages, csv: FileAgent.CsvTable, path: string, fileType: string)
    requires "input" in state && state["input"] == Str(path)
    requires "file_type" in state && state["file_type"] == Str(fileType)
    ensures FileNode(pdf, csv)(state)
            == (match FileAgent.Process(path, fileType, pdf, csv)
                case Failure(e) => Failure(e)
                case Success(res) => Success(res.AsValue()))
  {
  }

  /** Whatever the request, the file node as wired raises, so a request the
      classifier sends to "file" always ends in an error envelope. */
  lemma FileRoutedRequestsFailAsWritten(request: map<string, Value>, classifier: Router.Classifier, handlers: Router.Handlers)
    requires handlers.file == FileNodeAsWritten
    requires Router.BuildState(request).Success?
    requires var state := Router.BuildState(request).value;
             && classifier(state["input"], Router.Labels).Success?
             && |classifier(state["input"], Router.Labels).value| > 0
             && classifier(state["input"], Router.Labels).value[0] == "file"
    ensures Router.ProcessInput(request, classifier, handlers) == Router.Error(MissingFileTypeMessage)
  {
    Router.DispatchesToTopLabel(request, classifier, handlers, "file");
  }
}

=== FILE: wrappers.dfy ===
/** Failure-carrying return types used throughout the model in place of
    Python's exceptions and `None`. */
module Wrappers {

  /** `None` stands for Python's `None` where a value may be missing. */
  datatype Option<+T> = None | Some(value: T) {

    /** The wrapped value, or `default` when there is none
        (the shape of Python's `d.get(key, default)`). */
    function GetOr(default: T): T {
      match this
      case Some(v) => v
      case None => default
    }
  }

  /** The outcome of a call that either returns a value or raises. */
  datatype Result<+R, +E> = Success(value: R) | Failure(error: E)

  /** The outcome of a call that returns nothing of interest or raises. */
  datatype Outcome<+E> = Pass | Fail(error: E)
}
